=== FILE: README.md ===
# rift-whatsapp: a Dafny model of the reactivation campaign core

The rift-whatsapp bot messages Rift users on WhatsApp to bring them back. This
project models the core of the bot as pure Dafny functions and proves
properties of it:

- **Categorisation.** A first-match rule chain puts each user row into one
  of six lifecycle categories. The same file holds the first-name extractor
  and the per-category counts.
- **Number handling.** Kenyan phone numbers are normalised, and
  `isOnWhatsApp` and `sendMessage` turn the WhatsApp client's answers into
  `sent`, `skipped` or `failed`.
- **Campaign bookkeeping.** `server.js` and `scheduler.js` carry identical
  copies of this logic, modelled once:
  - the sent-tracker;
  - the priority-ordered category pick;
  - the daily cap of 50;
  - the per-user send loop with its tallies, tracker marks and pacing.
- **The automated scheduler.** One batch run, the random time-of-day draw,
  the next-run time, and the single timeout that is re-armed after each
  batch.
- **The HTTP server.** The `isRunning` guard, the `/run`, `/categories` and
  `/reset` handlers, and boot.
- **The command line of `index.js`.** Batch selection from the arguments,
  the rows of a dry or live run, early exit on an empty batch, and the
  closing summary.

The model does not implement these parts. Each one is a parameter instead:

- **Database.** The rows the database returns are a
  `Result<seq<User>>`, so a failed fetch is an `Err`.
- **Per-user collaborators.** What message generation and `sendMessage` did
  for each batch position is an `Attempt`: a thrown error, or the message
  and the send result.
- **Client start.** Starting the WhatsApp client is a `Result<()>`.
- **Clock.** The current time is an integer count of milliseconds. The local
  midnight of the current day is a separate parameter.
- **Randomness.** Each `Math.random()` draw is a real in [0, 1).

Modules follow the source files:

| module | file |
|---|---|
| `Categorize` | `categorize.js` |
| `WhatsApp` | `whatsapp.js` |
| `Campaign` | the shared part of `server.js` and `scheduler.js` |
| `Scheduler` | `scheduler.js` |
| `Server` | `server.js` |
| `Cli` | `index.js` |

Three helper modules support them:

- `Wrappers` holds `Option` and `Result`.
- `Seqs` holds a generic `Filter` and `Count`, with their algebra.
- `Text` holds ASCII whitespace, digits, trimming and the first token.

**Where the code and its own comment disagree.** The comment at
`rift-whatsapp/src/index.js:159` reads "Session break every N messages", with
N the constant `SESSION_BREAK_EVERY` of 10. The test that follows it
(`index.js:160`, and likewise `scheduler.js:133` and `server.js:137`) checks
the running sent count after every user who did not throw (in `index.js`,
after every such user of a live run: a dry run never reaches the test). So once the tenth message is
out, each following skipped or failed user also gets a session break, until
the next send. The model follows the code.
`Campaign.RepeatedBreakAfterTenthSend` states the consequence.

## Model

| member | source | states |
|---|---|---|
| Categorize.LastTxnTime | rift-whatsapp/src/categorize.js:14-20 | The last transaction time is absent exactly when both timestamps are absent. Otherwise it is one of them and no earlier than either one present. |
| Categorize.RuleChain | rift-whatsapp/src/categorize.js:26-54 | Some guarded rule always matches, so the fallback `return` at the end of the chain is unreachable. |
| Categorize.CategorizeUser | rift-whatsapp/src/categorize.js:12-55 | The category satisfies its declarative description. Each rule of the chain forces its category: unverified means `NO_KYC`; no transactions means `KYC_NO_TRANSACTIONS`; 4+ transactions and over 30 days idle means `DORMANT`; 1–3 transactions means `KYC_LOW_ACTIVITY`; otherwise the referral count picks between the two active categories. |
| Categorize.CategoryIsUnique | rift-whatsapp/src/categorize.js:26-54 | The six descriptions are mutually exclusive and exhaustive: a category describes a user if and only if it is the one the chain returns. |
| Categorize.ExactlyThirtyDaysIsNotDormant | rift-whatsapp/src/categorize.js:22-38 | The dormancy test is strict. A user exactly thirty days past their last transaction is not dormant. |
| Categorize.ActiveNoReferralsExample | rift-whatsapp/src/categorize.js:12-55 | Worked example: a verified user has 2+3 transactions, the later one 5 days ago, and no referrals. They have 5 transactions, their last time is the later one, and they are `ACTIVE_NO_REFERRALS`. |
| Categorize.ExtractFirstName | rift-whatsapp/src/categorize.js:89-92 | The result is null exactly for a missing or all-whitespace name. Otherwise it is a non-empty, whitespace-free prefix of the trimmed name, ending at the first whitespace or at the end of the name. |
| Categorize.CategorizeAllUsers | rift-whatsapp/src/categorize.js:57-87 | There is one decorated row per input row, in input order. Each row carries its user's id, phone, transaction total, last transaction time, first name and category. |
| Categorize.CategoryCounts | rift-whatsapp/src/categorize.js:94-105 | Every category is listed with the number of rows in it, and the six counts add up to the number of rows. |
| Categorize.EveryCategoryListed | rift-whatsapp/src/categorize.js:3-10 | The category enumeration names every category. |
| Categorize.CountsPartition | rift-whatsapp/src/categorize.js:94-98 | Every categorised row is counted in exactly one category. |
| WhatsApp.Clean | rift-whatsapp/src/whatsapp.js:40 | Cleaning keeps exactly the characters of the input that are not whitespace, `-` or `+`. |
| WhatsApp.FormatKenyanNumber | rift-whatsapp/src/whatsapp.js:38-58 | A result is always twelve digits starting with 254. The result is null exactly when the cleaned number, with a local `07`/`01` prefix rewritten, is not of that shape. |
| WhatsApp.FormatAcceptsExactly | rift-whatsapp/src/whatsapp.js:38-58 | A phone formats to `x` if and only if `x` is a valid number and the cleaned phone is either `x` itself, or `0` followed by `x`'s nine national digits when those start with 7 or 1. |
| WhatsApp.FormatIgnoresSeparator | rift-whatsapp/src/whatsapp.js:40 | Inserting a space, `-` or `+` anywhere in a phone does not change its formatting. |
| WhatsApp.FormatExample | rift-whatsapp/src/whatsapp.js:38-58 | Worked example: `0712 345-678` formats to `254712345678`. |
| WhatsApp.FormatIdempotent | rift-whatsapp/src/whatsapp.js:38-58 | Formatting an already formatted number returns it unchanged. |
| WhatsApp.IsOnWhatsApp | rift-whatsapp/src/whatsapp.js:60-69 | The result is true exactly when a client exists, the number is well formed, and the lookup answered "registered". |
| WhatsApp.SendMessage | rift-whatsapp/src/whatsapp.js:71-92 | With no client the call rejects. A malformed number is skipped with no client call. An unregistered number is skipped after a single lookup. Otherwise the status is `sent` or `failed` exactly as the delivery succeeded or threw, after a lookup and a delivery to `<formatted>@c.us`. A `sent` result has no error; a `failed` one carries the thrown delivery error. |
| WhatsApp.DeliveriesOnlyToRegisteredNumbers | rift-whatsapp/src/whatsapp.js:79-88 | A delivery call happens only after the lookup reported the number as registered, and only to a well-formed Kenyan number. |
| Campaign.MarkUserSent | rift-whatsapp/src/scheduler.js:44-47 | The tracker gains exactly the user's key, holding the category and time. Every other entry is unchanged. |
| Campaign.PriorityIsPermutation | rift-whatsapp/src/scheduler.js:18-25 | The priority order names each of the six categories exactly once. |
| Campaign.PickFrom | rift-whatsapp/src/scheduler.js:52-60 | The result is null exactly when no category of the order has an unsent user. Otherwise it is the first such category, with its unsent users. |
| Campaign.PickCategory | rift-whatsapp/src/scheduler.js:51-61 | The pick is null exactly when every categorised user is tracked. Otherwise it is the first category in priority order with an untracked user, with exactly that category's untracked users, in input order. |
| Campaign.MarkedUserNeverPicked | rift-whatsapp/src/scheduler.js:44-61 | After `markUserSent`, no later pick lists that user, whatever category it picks. |
| Campaign.TrackedStaysUnpicked | rift-whatsapp/src/scheduler.js:51-61 | As the tracker grows, a tracked user never comes back into a pick. |
| Campaign.TakeBatch | rift-whatsapp/src/scheduler.js:88 | The batch is the first `min(cap, n)` unsent users, in order. |
| Campaign.PauseAfter | rift-whatsapp/src/scheduler.js:133-137 | No pause follows the last user. A session break is taken exactly when the running sent count is a positive multiple of ten and users remain. Otherwise the normal delay is taken. |
| Campaign.SentRow | rift-whatsapp/src/scheduler.js:117 | The row logged for a sent user has the user's id and name, the picked category and the message. The send result is spread over it, so the row has the result's phone (the formatted number) and error, with status `sent`. |
| Campaign.Record | rift-whatsapp/src/scheduler.js:114-130 | A sent result is counted, marked in the tracker and logged with its `SentRow`. A skipped result is counted and marked but not logged. A failed result is only counted. Pauses are untouched. |
| Campaign.LoopStep | rift-whatsapp/src/scheduler.js:110-141 | One user's iteration. The sent, skipped and failed counts each grow by one exactly for that outcome (a throw counts as failed). The log gains the user's `SentRow` exactly when the send was sent. The tracker gains the user exactly when sent or skipped. One pause is appended: none after a throw, otherwise the pacing rule on the new sent count. The loop in server.js:114-146 is the same. |
| Campaign.RunLoop | rift-whatsapp/src/scheduler.js:104-142 | After `k` users the three counts add up to `k`. The log has one row per send. One pause was taken per user. No earlier tracker key is lost. |
| Campaign.SentRowsMembers | rift-whatsapp/src/scheduler.js:115-118 | The expected log holds a row exactly when it is the `SentRow` of some user whose send was sent, built from that user and that result. |
| Campaign.RunLoopTally | rift-whatsapp/src/scheduler.js:100-142 | The sent, skipped and failed counts are the numbers of sent results, skipped results, and failures-or-thrown-errors. They add up to the number of users processed. The send log is exactly the expected rows: one `SentRow` per sent user, in batch order. |
| Campaign.OutcomesPartition | rift-whatsapp/src/scheduler.js:113-141 | Every user's outcome is exactly one of sent, skipped, or a failure (failed status or thrown error). |
| Campaign.RunLoopTracker | rift-whatsapp/src/scheduler.js:113-130 | After the loop the tracker's keys are the earlier ones plus exactly the sent and skipped users. Their entries hold the picked category. Earlier entries of untouched users are kept. |
| Campaign.RunLoopPauses | rift-whatsapp/src/scheduler.js:104-142 | One pause is recorded per user. The pause after user `i` is none when that user threw; otherwise it is the pacing rule applied to the number of sends among users `0..i`. |
| Campaign.FailedUsersStayUntracked | rift-whatsapp/src/scheduler.js:113-141 | For a batch of untracked, distinct users: a user is tracked after the loop if and only if their send was sent or skipped. |
| Campaign.RepeatedBreakAfterTenthSend | rift-whatsapp/src/scheduler.js:133-137 | Once ten messages are out, a following skipped or failed user (sent count still ten) also gets a session break. |
| Scheduler.FloorDraw | rift-whatsapp/src/scheduler.js:173-174 | `Math.floor(u * k)` for `u` in [0, 1) lies in [0, k) when `k` is positive. |
| Scheduler.RandomHourMinute | rift-whatsapp/src/scheduler.js:172-176 | The hour lies in [startHour, endHour) when that window is non-empty. The minute lies in [0, 59]. |
| Scheduler.DailyWindow | rift-whatsapp/src/scheduler.js:184 | The scheduler's draw lands between 09:00 and 16:59. |
| Scheduler.NextRunTime | rift-whatsapp/src/scheduler.js:186-195 | The next run is strictly after now and at most a day later. It falls at the drawn time of day, today or tomorrow, and tomorrow only when today's time had already passed. |
| Scheduler.ClearHandle | rift-whatsapp/src/scheduler.js:200 | `clearTimeout` removes exactly the stored timeout from the pending ones. |
| Scheduler.ScheduleNextRun | rift-whatsapp/src/scheduler.js:182-206 | The delay is positive and at most a day. A fresh timeout is stored and pending, firing at now plus the delay. The previously stored timeout is cancelled, so exactly one timeout is pending. |
| Scheduler.Fire | rift-whatsapp/src/scheduler.js:202-205 | A firing timeout stops being pending, and nothing else is left pending. |
| Scheduler.Shutdown | rift-whatsapp/src/scheduler.js:246-249 | After the SIGINT handler's `clearTimeout`, no timeout is pending. |
| Scheduler.AtMostOneTimerAlways | rift-whatsapp/src/scheduler.js:182-206 | Over any sequence of schedules, firings and shutdowns, at most one timeout is ever pending. |
| Scheduler.SchedulerRunBatch | rift-whatsapp/src/scheduler.js:65-157 | A failed fetch aborts with its error. A null pick means the campaign is complete. A failed WhatsApp start aborts before any send. Otherwise the batch is the picked category's first `min(50, n)` unsent users, run through the loop. |
| Scheduler.NoSendsUnlessRan | rift-whatsapp/src/scheduler.js:65-157 | A run that reaches the loop keeps every earlier mark. It adds exactly the ids of its batch's sent and skipped users. Its send log is exactly one `SentRow` per sent user of the batch, in order. |
| Scheduler.RanBatchIsUnsent | rift-whatsapp/src/scheduler.js:80-88 | Every user in a batch that ran is an untracked user of the picked category. |
| Scheduler.SkippedNeverRetriedFailedRetried | rift-whatsapp/src/scheduler.js:113-130 | When the fetched user ids are distinct (they are the database's keys): after a run, a sent or skipped user is tracked and never picked again. A failed user stays an unsent user of the category. A later pick over the same rows and the updated tracker chooses the same category again and lists that user. |
| Campaign.PickStableUnderTracking | rift-whatsapp/src/scheduler.js:51-61 | While one user of the picked category stays untracked, tracking more users keeps the pick on that category, and its list still holds that user. |
| Server.Initial | rift-whatsapp/src/server.js:29-35 | The server starts not running, not connected, with zero stats, and with timers that satisfy the at-most-one-pending invariant. |
| Server.BeginBatch | rift-whatsapp/src/server.js:71-82 | A running batch or a missing connection turns the call away with the matching reason. Otherwise the only change is that `isRunning` is set. |
| Server.FinishBatch | rift-whatsapp/src/server.js:86-169 | `isRunning` is always cleared and only the tracker, stats and `lastRun` change. A failed fetch is recorded as an error. "Complete" is returned exactly when every categorised user is tracked. Stats and tracker move only for a finished batch, which is the scheduler's run over the same rows and tracker: the reported category and tally are that run's picked category and loop tally, the stats grow by exactly that tally, the tracker becomes the loop's tracker, and the batch covered 1 to 50 users. |
| Server.RunBatch | rift-whatsapp/src/server.js:71-170 | A call turned away by the guard changes nothing. A call that runs leaves `isRunning` cleared. The connection flag, timers and next run time are untouched. |
| Server.AtMostOneBatchInFlight | rift-whatsapp/src/server.js:71-170 | However batch triggers and completions interleave, at most one batch is in flight, and one is in flight exactly when `isRunning` is set. |
| Server.RunRoute | rift-whatsapp/src/server.js:265-269 | `POST /run` answers 409 exactly when a batch is running, and 400 exactly when not running and not connected. |
| Server.RouteAgreesWithGuard | rift-whatsapp/src/server.js:265-269 | The route's answer agrees with `runBatch`'s own guard. A started run is never turned away, and each refusal has the same reason. |
| Server.CategoryStatOf | rift-whatsapp/src/server.js:252-256 | One category's row: the total is the number of users in it, sent counts its tracked users, remaining counts its untracked users, and sent plus remaining is the total. |
| Server.CategoriesSummary | rift-whatsapp/src/server.js:245-262 | The report covers every category. The totals add up to the number of users, and `tracked` is the number of tracker keys. |
| Server.RemainingAgreesWithPick | rift-whatsapp/src/server.js:245-262 | The breakdown agrees with the picker. Remaining is zero everywhere exactly when the pick is null, and the picked category's remaining count is the size of the pick. |
| Server.Reset | rift-whatsapp/src/server.js:273-277 | `POST /reset` empties the tracker and zeroes the stats, and changes nothing else. |
| Server.ResetReopensEveryone | rift-whatsapp/src/server.js:273-277 | After a reset every user is eligible again, and the campaign is complete only when there are no users. |
| Server.ServerScheduleNextRun | rift-whatsapp/src/server.js:174-194 | The recorded next run time lies within the next day. Exactly one timeout is pending, the stored one, and it fires at that time. Nothing else in the state changes. |
| Server.Boot | rift-whatsapp/src/server.js:314-324 | A successful WhatsApp start connects the server and schedules a run within a day. A failed one changes nothing. |
| Server.OnTimeout | rift-whatsapp/src/server.js:189-193 | After the timeout callback, exactly one timeout is pending again. The next run lies within a day of the re-scheduling time. If no batch was running before, `isRunning` is clear afterwards. |
| Cli.SliceEnd | rift-whatsapp/src/index.js:81 | `slice(0, e)` ends at `min(e, n)` for a non-negative `e`. A negative `e` counts back from the end, down to 0. |
| Cli.Target | rift-whatsapp/src/index.js:79 | The target users are exactly the users of the chosen category, as many as that category's count. |
| Cli.SelectBatchAsWritten | rift-whatsapp/src/index.js:79-81 | The batch as the code selects it: a prefix of the target users whose length is the `slice` end for `min(limit, 50)`. |
| Cli.NegativeLimitExceedsCap | rift-whatsapp/src/index.js:80-81 | With `--limit -1` and 52 users in the category, the code selects 51 users, more than the daily cap. |
| Cli.SelectBatch | rift-whatsapp/src/index.js:79-81 | Corrected selection: a prefix of the target users, never more than 50. For a non-negative limit it has `min(limit, 50, n)` users; for a non-positive limit it is empty. |
| Cli.SelectBatchAgrees | rift-whatsapp/src/index.js:79-81 | For every non-negative limit the corrected selection equals the code's. |
| Cli.EntryFor | rift-whatsapp/src/index.js:121-177 | A thrown generation or send gives an `error` row with the raw phone, carrying the thrown message as its error and no message. A dry run gives a `dry_run` row with the generated message and no error. A live row carries the generated message and the send result's status and error, with the formatted phone replacing the raw one. |
| Cli.CliStep | rift-whatsapp/src/index.js:115-178 | One user's iteration appends that user's `EntryFor` row to `results`. The same row goes to the send log exactly for a live send that resolved. `sentCount` grows exactly for a live `sent` result. One pause is appended: none in a dry run or after a throw, otherwise the pacing rule on the new sent count. |
| Cli.CliLoop | rift-whatsapp/src/index.js:115-178 | After `k` users there are `k` rows and `k` pauses. The send log is no longer than `results`, and `sentCount` no larger than the send log. A dry run logs and sends nothing. |
| Cli.CliLoopRows | rift-whatsapp/src/index.js:115-178 | `results` has one row per user, in batch order. |
| Cli.CliLoopSendLog | rift-whatsapp/src/index.js:137-147 | The rows given to `appendLog` are exactly the live rows of `results`, in order. |
| Cli.CliLoopSent | rift-whatsapp/src/index.js:149-151 | `sentCount` is the number of `sent` rows: zero in a dry run, the number of sent results in a live run. |
| Cli.CliLoopPauses | rift-whatsapp/src/index.js:159-164 | A dry run takes no pauses. In a live run the pause after each user follows the pacing rule on the running sent count. |
| Cli.SummaryOf | rift-whatsapp/src/index.js:186-191 | Each printed count is the number of rows with its status: `sent`, `failed`, `skipped`, `error`, `dry_run`. The five add up to the number of rows. |
| Cli.SummaryPartition | rift-whatsapp/src/index.js:186-191 | Every row has exactly one of the five statuses. |
| Cli.CliRunFacts | rift-whatsapp/src/index.js:180-200 | After the loop, a dry run has an empty send log and no sends, and a live run has no `dry_run` rows. |
| Cli.CliMain | rift-whatsapp/src/index.js:43-208 | `main` ends in one of these ways:<br>- A failed fetch is fatal.<br>- `--summary`, or a missing category, prints the counts.<br>- An empty selection exits early.<br>- A failed WhatsApp start in a live run is fatal.<br>- Otherwise it processes 1 to 50 users of the chosen category.<br>Each ending is stated both ways: it happens exactly when its condition holds. A processed batch is exactly the selection for the category and limit. Row `i` is the entry for user `i` and attempt `i`. The send log is exactly the delivered rows. The summary counts the rows and adds up to the batch size. |

## Left out

- `db.js`, `messageGen.js`, `logger.js` and `test-send.js` are not part of this model. Query results, generated messages and log writes are parameters or sequences in the model.
- The WhatsApp client lifecycle is not modelled: `initWhatsApp`, `destroyWhatsApp`, QR and ready events. Only its outcome is a parameter.
- The routes `GET /`, `GET /qr` and `GET /logs` are not modelled. They are presentation only.
- Delay and break durations (`randomDelay`, `sessionBreak`) are not modelled; only which pause is taken is.
- The elapsed-minutes string is not modelled.
- `Date` and locale details are not modelled: time zones, daylight saving, `toLocaleString`, ISO strings.
- Per-user `Date.now()` differences are not modelled. One `now` stands for the whole batch.
- Environment-variable checks, `process.exit`, the health-check cron, console output and the `--now`/`--once` flags of `scheduler.js` are I/O and process control.
- A throw from the file writes inside the loop is not modelled: `saveSentTracker` (called by `markUserSent`) and `appendLog`'s `writeFileSync`. In `scheduler.js` and `server.js` such a throw lands in the `catch` after the count for that user was already raised, so the user is counted as sent (or skipped) and also as failed, the pause is skipped, and the in-memory mark stays. In `index.js` it lands after `results.push`, so the user gets a second, `error` row.
- Campaign.RunLoop: "the counts add up to `k`" and the per-outcome step effects hold only when the tracker and log writes succeed, for the reason above.
- Cli.CliLoop: "one row per user" holds only when `appendLog` succeeds, for the reason above.
- The admin alerts to the fixed alert number are not modelled. This covers the batch start and summary alerts, the per-send forward, and `sendAlertOnly`. A throw from the forward after a `sent` result is not modelled either.
- Concurrency between `POST /reset` and a batch in flight is not modelled. The running batch keeps its in-memory tracker and would write it back at its next mark.
- The volume and referral-earnings columns of a categorised row are not modelled. Only `messageGen.js`, which is not part of this model, reads them.
- Campaign.Tracker: an entry is treated as present or absent by key. The source tests the truthiness of the entry object, which is the same thing for entries it writes itself.
- Text.IsSpace: only ASCII whitespace counts. JavaScript `\s` and `trim` also treat Unicode spaces as whitespace.
- Cli.CliMain: selects with the corrected `Cli.SelectBatch`. For a negative `--limit` the program selects `SliceEnd(n, limit)` users instead, as the Findings table shows with `Cli.SelectBatchAsWritten`.
- Cli.Args: `limit` is an integer. A fractional or `NaN` `--limit` is not modelled.
- Scheduler.NextRunTime: moving to the next day adds exactly 24 hours. `setDate` on a daylight-saving transition day is not modelled.
- Server.CategoriesSummary: takes the fetched rows. The 500 reply to a failed fetch is not modelled.
- Server.FinishBatch: the start alert that the server sends before the loop is not modelled. So neither is the error path that alert would take if it threw.
- WhatsApp.SendMessage: the result's timestamp is not modelled.

## Findings

| source | as written | input that shows it | evidently intended | confidence | as-written member | corrected member |
|---|---|---|---|---|---|---|
| rift-whatsapp/src/index.js:80-81 | `targetUsers.slice(0, Math.min(limit, DAILY_CAP))` passes a negative limit straight to `slice`, which then counts back from the end | `--limit -1` with 52 users in the category selects 51 users | never more than the daily cap of 50, and no users for a non-positive limit | high; not executed | Cli.SelectBatchAsWritten | Cli.SelectBatch |

=== FILE: campaign.dfy ===
/** Campaign bookkeeping shared by `server.js` and `scheduler.js` (the two
    files carry identical copies): the sent-tracker, the priority-ordered
    category pick, the daily cap, and the per-user send loop with its
    tallies, tracker updates and pacing decisions. */
module Campaign {
  import opened Wrappers
  import opened Seqs
  import opened Categorize
  import opened WhatsApp

  /** Users sent per batch at most. */
  const DAILY_CAP: nat := 50

  /** A session break is due after every this many sent messages. */
  const SESSION_BREAK_EVERY: nat := 10

  /** What the tracker records about a user: the category they were
      messaged in and when. */
  datatype TrackerEntry = TrackerEntry(category: Category, sentAt: int)

  /** The sent-tracker: user id to entry. A key's presence means "already
      handled in this campaign". */
  type Tracker = map<UserId, TrackerEntry>

  /** `markUserSent`: set or overwrite the entry of one user. The write-through
      save is the identity on this in-memory model. */
  function MarkUserSent(tracker: Tracker, userId: UserId, category: Category, now: int): (r: Tracker)
    ensures r.Keys == tracker.Keys + {userId}
    ensures r[userId] == TrackerEntry(category, now)
    ensures forall k :: k in tracker && k != userId ==> r[k] == tracker[k]
  {
    tracker[userId := TrackerEntry(category, now)]
  }

  /** `CATEGORY_PRIORITY`: reactivation targets first, unverified users last. */
  const CategoryPriority: seq<Category> :=
    [Dormant, KycNoTransactions, KycLowActivity, ActiveNoReferrals, ActiveWithReferrals, NoKyc]

  /** The priority list names every category exactly once. */
  lemma PriorityIsPermutation()
    ensures |CategoryPriority| == |AllCategories|
    ensures forall c: Category :: c in CategoryPriority
    ensures forall i, j :: 0 <= i < j < |CategoryPriority| ==> CategoryPriority[i] != CategoryPriority[j]
  {
    forall c: Category
      ensures c in CategoryPriority
    {
      match c
      case Dormant => assert CategoryPriority[0] == c;
      case KycNoTransactions => assert CategoryPriority[1] == c;
      case KycLowActivity => assert CategoryPriority[2] == c;
      case ActiveNoReferrals => assert CategoryPriority[3] == c;
      case ActiveWithReferrals => assert CategoryPriority[4] == c;
      case NoKyc => assert CategoryPriority[5] == c;
    }
  }

  function IsUnsentIn(tracker: Tracker, category: Category): CategorizedUser -> bool {
    (u: CategorizedUser) => u.category == category && u.id !in tracker
  }

  /** The users of `category` with no tracker entry, in input order. */
  function Unsent(users: seq<CategorizedUser>, tracker: Tracker, category: Category): (r: seq<CategorizedUser>)
    ensures forall u :: u in r <==> u in users && u.category == category && u.id !in tracker
  {
    Filter(users, IsUnsentIn(tracker, category))
  }

  datatype Pick = Pick(category: Category, users: seq<CategorizedUser>)

  /** The first category of `order` that still has an unsent user. */
  function PickFrom(order: seq<Category>, users: seq<CategorizedUser>, tracker: Tracker): (r: Option<Pick>)
    ensures r.None? <==> forall i :: 0 <= i < |order| ==> Unsent(users, tracker, order[i]) == []
    ensures r.Some? ==>
              && r.value.users == Unsent(users, tracker, r.value.category)
              && r.value.users != []
              && exists i :: 0 <= i < |order| && order[i] == r.value.category
                             && forall j :: 0 <= j < i ==> Unsent(users, tracker, order[j]) == []
  {
    if order == [] then None
    else
      var unsent := Unsent(users, tracker, order[0]);
      if unsent != [] then Some(Pick(order[0], unsent))
      else
        var rest := PickFrom(order[1..], users, tracker);
        assert rest.Some? ==> exists i :: 0 < i < |order| && order[i] == rest.value.category
                               && forall j :: 0 <= j < i ==> Unsent(users, tracker, order[j]) == [] by {
          if rest.Some? {
            var i :| 0 <= i < |order[1..]| && order[1..][i] == rest.value.category
                     && forall j :: 0 <= j < i ==> Unsent(users, tracker, order[1..][j]) == [];
            assert order[i + 1] == rest.value.category;
            forall j | 0 <= j < i + 1
              ensures Unsent(users, tracker, order[j]) == []
            {
              if j > 0 { assert order[j] == order[1..][j - 1]; }
            }
          }
        }
        assert rest.None? ==> forall i :: 0 <= i < |order| ==> Unsent(users, tracker, order[i]) == [] by {
          if rest.None? {
            forall i | 0 <= i < |order|
              ensures Unsent(users, tracker, order[i]) == []
            {
              if i > 0 { assert order[i] == order[1..][i - 1]; }
            }
          }
        }
        rest
  }

  /** `pickCategory`: the first category in priority order with an untracked
      user, with all of that category's untracked users in input order; null
      exactly when every categorised user has a tracker entry. */
  function PickCategory(users: seq<CategorizedUser>, tracker: Tracker): (r: Option<Pick>)
    ensures r.None? <==> forall u :: u in users ==> u.id in tracker
    ensures r.Some? ==>
              && r.value.users == Unsent(users, tracker, r.value.category)
              && r.value.users != []
              && (forall u :: u in r.value.users <==>
                    u in users && u.category == r.value.category && u.id !in tracker)
              && exists i :: 0 <= i < |CategoryPriority| && CategoryPriority[i] == r.value.category
                             && forall j :: 0 <= j < i ==> Unsent(users, tracker, CategoryPriority[j]) == []
  {
    var r := PickFrom(CategoryPriority, users, tracker);
    PriorityIsPermutation();
    assert r.None? ==> forall u :: u in users ==> u.id in tracker by {
      if r.None? {
        forall u | u in users
          ensures u.id in tracker
        {
          assert u.category in CategoryPriority;
          var i :| 0 <= i < |CategoryPriority| && CategoryPriority[i] == u.category;
          assert Unsent(users, tracker, CategoryPriority[i]) == [];
          assert u !in Unsent(users, tracker, u.category);
        }
      }
    }
    assert r.Some? ==> exists u :: u in users && u.id !in tracker by {
      if r.Some? {
        assert r.value.users[0] in r.value.users;
      }
    }
    r
  }

  /** After `markUserSent`, the pick never lists that user, whatever
      category it picks. */
  lemma MarkedUserNeverPicked(users: seq<CategorizedUser>, tracker: Tracker,
                              userId: UserId, category: Category, now: int)
    ensures var p := PickCategory(users, MarkUserSent(tracker, userId, category, now));
            p.Some? ==> forall u :: u in p.value.users ==> u.id != userId
  {
  }

  /** Tracking more users never brings a tracked user back into a pick. */
  lemma TrackedStaysUnpicked(users: seq<CategorizedUser>, before: Tracker, after: Tracker, id: UserId)
    requires before.Keys <= after.Keys
    requires id in before
    ensures var p := PickCategory(users, after);
            p.Some? ==> forall u :: u in p.value.users ==> u.id != id
  {
  }

  /** While one user of the picked category stays untracked, tracking more
      users does not move the pick: the same category comes first again, and
      its list still holds that user. */
  lemma PickStableUnderTracking(users: seq<CategorizedUser>, before: Tracker, after: Tracker,
                                category: Category, u: CategorizedUser)
    requires before.Keys <= after.Keys
    requires PickCategory(users, before).Some? && PickCategory(users, before).value.category == category
    requires u in users && u.category == category && u.id !in after
    ensures PickCategory(users, after).Some?
    ensures PickCategory(users, after).value.category == category
    ensures u in PickCategory(users, after).value.users
  {
    var q := PickCategory(users, after);
    assert u in Unsent(users, after, category);
    assert q.Some?;
    var i :| 0 <= i < |CategoryPriority| && CategoryPriority[i] == category
             && forall j :: 0 <= j < i ==> Unsent(users, before, CategoryPriority[j]) == [];
    var i' :| 0 <= i' < |CategoryPriority| && CategoryPriority[i'] == q.value.category
              && forall j :: 0 <= j < i' ==> Unsent(users, after, CategoryPriority[j]) == [];
    var w := q.value.users[0];
    assert w in Unsent(users, after, q.value.category);
    FirstCategoryWithWorkAgrees(users, before, after, i, i', u, w);
  }

  /** The index argument behind `PickStableUnderTracking`: the first category
      with work before, and the first with work after, are the same one. */
  lemma FirstCategoryWithWorkAgrees(users: seq<CategorizedUser>, before: Tracker, after: Tracker,
                                    i: nat, i': nat, u: CategorizedUser, w: CategorizedUser)
    requires before.Keys <= after.Keys
    requires i < |CategoryPriority| && i' < |CategoryPriority|
    requires forall j :: 0 <= j < i ==> Unsent(users, before, CategoryPriority[j]) == []
    requires forall j :: 0 <= j < i' ==> Unsent(users, after, CategoryPriority[j]) == []
    requires u in Unsent(users, after, CategoryPriority[i])
    requires w in Unsent(users, after, CategoryPriority[i'])
    ensures i == i'
  {
    assert w in Unsent(users, before, CategoryPriority[i']);
  }

  /** The first `min(cap, |users|)` users, in order (`slice(0, cap)`). */
  function TakeBatch(users: seq<CategorizedUser>, cap: nat): (r: seq<CategorizedUser>)
    ensures |r| == if cap < |users| then cap else |users|
    ensures r == users[..|r|]
  {
    if cap < |users| then users[..cap] else users
  }

  /** What the two collaborators did for one user: generation or the send
      call threw, or the send resolved with a result. */
  datatype Attempt = Threw(error: string) | Returned(message: string, result: SendResult)

  predicate IsSent(a: Attempt) { a.Returned? && a.result.status == Sent }
  predicate IsSkipped(a: Attempt) { a.Returned? && a.result.status == Skipped }
  /** Counted in `failCount`: a thrown error or any status other than sent
      and skipped. */
  predicate IsFailure(a: Attempt) { a.Threw? || a.result.status == Failed }

  /** The pause taken after a user. */
  datatype Pause = NoPause | Delay | SessionBreak

  /** The pacing rule after user `i` of `n`, given the sent count so far. */
  function PauseAfter(sentCount: nat, i: nat, n: nat): (p: Pause)
    requires i < n
    ensures p == NoPause <==> i == n - 1
    ensures p == SessionBreak <==> i < n - 1 && sentCount > 0 && sentCount % SESSION_BREAK_EVERY == 0
  {
    if sentCount > 0 && sentCount % SESSION_BREAK_EVERY == 0 && i < n - 1 then SessionBreak
    else if i < n - 1 then Delay
    else NoPause
  }

  /** The collaborators' answers for each batch position. */
  function AttemptsFor(batch: seq<CategorizedUser>, attempt: nat -> Attempt): (r: seq<Attempt>)
    ensures |r| == |batch|
    ensures forall i :: 0 <= i < |r| ==> r[i] == attempt(i)
  {
    seq(|batch|, i requires 0 <= i < |batch| => attempt(i))
  }

  /** One send-log row (`appendLog`). The send result is spread last, so its
      phone (the formatted number) replaces the user's raw one. */
  datatype EntryStatus = Delivery(status: SendStatus) | Error | DryRun

  datatype LogEntry = LogEntry(
    userId: UserId,
    phone: string,
    name: Option<string>,
    category: Category,
    message: Option<string>,
    status: EntryStatus,
    error: Option<string>)

  datatype Tally = Tally(sent: nat, skipped: nat, failed: nat)

  /** The loop's state: the three counts, the tracker, the send log and the
      pause chosen after each user so far. */
  datatype LoopState = LoopState(tally: Tally, tracker: Tracker, log: seq<LogEntry>, pauses: seq<Pause>)

  /** The row `appendLog` writes for a sent user: the user's id and name, the
      picked category and the message, with the send result spread over
      them, so its formatted phone replaces the raw one. */
  function SentRow(user: CategorizedUser, message: string, result: SendResult, category: Category): (e: LogEntry)
    ensures e.userId == user.id && e.name == user.firstName && e.category == category
    ensures e.phone == result.phone && e.message == Some(message) && e.error == result.error
    ensures e.status == Delivery(Sent)
  {
    LogEntry(user.id, result.phone, user.firstName, category, Some(message), Delivery(Sent), result.error)
  }

  /** The tally, tracker and log after one user's send resolved: a sent user
      is counted, marked and logged; a skipped one is counted and marked; a
      failed one is only counted. */
  function Record(st: LoopState, user: CategorizedUser, message: string, result: SendResult,
                  category: Category, now: int): (r: LoopState)
    ensures r.tally.sent == st.tally.sent + (if result.status == Sent then 1 else 0)
    ensures r.tally.skipped == st.tally.skipped + (if result.status == Skipped then 1 else 0)
    ensures r.tally.failed == st.tally.failed + (if result.status == Failed then 1 else 0)
    ensures r.tracker == if result.status != Failed then MarkUserSent(st.tracker, user.id, category, now)
                         else st.tracker
    ensures r.log == st.log + (if result.status == Sent then [SentRow(user, message, result, category)] else [])
    ensures r.pauses == st.pauses
  {
    match result.status
    case Sent =>
      st.(tally := st.tally.(sent := st.tally.sent + 1),
          tracker := MarkUserSent(st.tracker, user.id, category, now),
          log := st.log + [SentRow(user, message, result, category)])
    case Skipped =>
      st.(tally := st.tally.(skipped := st.tally.skipped + 1),
          tracker := MarkUserSent(st.tracker, user.id, category, now))
    case Failed =>
      st.(tally := st.tally.(failed := st.tally.failed + 1))
  }

  /** One iteration of the `runBatch` loop for user `i` of `n`. A throw is
      counted as a failure and skips the pause; a resolved send is recorded
      and followed by the pacing rule on the new sent count. */
  function LoopStep(st: LoopState, user: CategorizedUser, attempt: Attempt,
                    category: Category, now: int, i: nat, n: nat): (r: LoopState)
    requires i < n
    ensures r.tally.sent == st.tally.sent + (if IsSent(attempt) then 1 else 0)
    ensures r.tally.skipped == st.tally.skipped + (if IsSkipped(attempt) then 1 else 0)
    ensures r.tally.failed == st.tally.failed + (if IsFailure(attempt) then 1 else 0)
    ensures r.log == st.log + (if IsSent(attempt) then [SentRow(user, attempt.message, attempt.result, category)]
                               else [])
    ensures r.pauses == st.pauses + [if attempt.Threw? then NoPause else PauseAfter(r.tally.sent, i, n)]
    ensures r.tracker == if IsSent(attempt) || IsSkipped(attempt) then MarkUserSent(st.tracker, user.id, category, now)
                         else st.tracker
  {
    match attempt
    case Threw(_) =>
      st.(tally := st.tally.(failed := st.tally.failed + 1), pauses := st.pauses + [NoPause])
    case Returned(message, result) =>
      var st' := Record(st, user, message, result, category, now);
      st'.(pauses := st'.pauses + [PauseAfter(st'.tally.sent, i, n)])
  }

  /** The loop state after the first `k` users of the batch. */
  function RunLoop(batch: seq<CategorizedUser>, attempts: seq<Attempt>, category: Category,
                   now: int, tracker: Tracker, k: nat): (r: LoopState)
    requires |attempts| == |batch| && k <= |batch|
    ensures r.tally.sent + r.tally.skipped + r.tally.failed == k
    ensures |r.log| == r.tally.sent
    ensures |r.pauses| == k
    ensures tracker.Keys <= r.tracker.Keys
  {
    if k == 0 then LoopState(Tally(0, 0, 0), tracker, [], [])
    else LoopStep(RunLoop(batch, attempts, category, now, tracker, k - 1),
                  batch[k - 1], attempts[k - 1], category, now, k - 1, |batch|)
  }

  /** The ids the loop marks in the first `k` steps: sent and skipped users. */
  function MarkedIds(batch: seq<CategorizedUser>, attempts: seq<Attempt>, k: nat): set<UserId>
    requires |attempts| == |batch| && k <= |batch|
  {
    set i | 0 <= i < k && (IsSent(attempts[i]) || IsSkipped(attempts[i])) :: batch[i].id
  }

  /** The pause the source takes after user `i`: none on the error path,
      otherwise the pacing rule applied to the sends among users `0..i`. */
  function ExpectedPause(attempts: seq<Attempt>, i: nat): Pause
    requires i < |attempts|
  {
    if attempts[i].Threw? then NoPause
    else PauseAfter(Count(attempts[..i + 1], IsSent), i, |attempts|)
  }

  /** The rows the send log should hold after `k` users: one per sent
      attempt, in batch order, each built from that user and that attempt. */
  function SentRows(batch: seq<CategorizedUser>, attempts: seq<Attempt>, category: Category, k: nat): (r: seq<LogEntry>)
    requires |attempts| == |batch| && k <= |batch|
    ensures |r| == Count(attempts[..k], IsSent)
    ensures forall e :: e in r ==> e.status == Delivery(Sent) && e.category == category
  {
    if k == 0 then []
    else
      var a := attempts[k - 1];
      CountPrefixStep(attempts, k - 1, IsSent);
      SentRows(batch, attempts, category, k - 1)
      + (if IsSent(a) then [SentRow(batch[k - 1], a.message, a.result, category)] else [])
  }

  /** A row is in the expected log exactly when it is the sent row of some
      user whose send was sent. */
  lemma {:induction false} SentRowsMembers(batch: seq<CategorizedUser>, attempts: seq<Attempt>,
                                           category: Category, k: nat, e: LogEntry)
    requires |attempts| == |batch| && k <= |batch|
    ensures e in SentRows(batch, attempts, category, k) <==>
              exists i :: 0 <= i < k && IsSent(attempts[i])
                          && e == SentRow(batch[i], attempts[i].message, attempts[i].result, category)
  {
    if k > 0 {
      SentRowsMembers(batch, attempts, category, k - 1, e);
      var a := attempts[k - 1];
      if IsSent(a) && e == SentRow(batch[k - 1], a.message, a.result, category) {
        assert e in SentRows(batch, attempts, category, k);
      }
    }
  }

  /** The send log after `k` users is exactly the expected rows. */
  lemma {:induction false} RunLoopLog(batch: seq<CategorizedUser>, attempts: seq<Attempt>,
                                      category: Category, now: int, tracker: Tracker, k: nat)
    requires |attempts| == |batch| && k <= |batch|
    ensures RunLoop(batch, attempts, category, now, tracker, k).log == SentRows(batch, attempts, category, k)
  {
    if k > 0 {
      RunLoopLog(batch, attempts, category, now, tracker, k - 1);
    }
  }

  /** The sent tally counts the sent outcomes, and each sent user has one
      log row. */
  lemma {:induction false} RunLoopSent(batch: seq<CategorizedUser>, attempts: seq<Attempt>,
                                       category: Category, now: int, tracker: Tracker, k: nat)
    requires |attempts| == |batch| && k <= |batch|
    ensures var st := RunLoop(batch, attempts, category, now, tracker, k);
            st.tally.sent == Count(attempts[..k], IsSent) && |st.log| == st.tally.sent
  {
    if k > 0 {
      RunLoopStep(batch, attempts, category, now, tracker, k);
      RunLoopSent(batch, attempts, category, now, tracker, k - 1);
      CountPrefixStep(attempts, k - 1, IsSent);
    }
  }

  /** The skipped tally counts the skipped outcomes. */
  lemma {:induction false} RunLoopSkipped(batch: seq<CategorizedUser>, attempts: seq<Attempt>,
                                          category: Category, now: int, tracker: Tracker, k: nat)
    requires |attempts| == |batch| && k <= |batch|
    ensures RunLoop(batch, attempts, category, now, tracker, k).tally.skipped == Count(attempts[..k], IsSkipped)
  {
    if k > 0 {
      RunLoopStep(batch, attempts, category, now, tracker, k);
      RunLoopSkipped(batch, attempts, category, now, tracker, k - 1);
      CountPrefixStep(attempts, k - 1, IsSkipped);
    }
  }

  /** The failed tally counts failed sends and thrown errors. */
  lemma {:induction false} RunLoopFailed(batch: seq<CategorizedUser>, attempts: seq<Attempt>,
                                         category: Category, now: int, tracker: Tracker, k: nat)
    requires |attempts| == |batch| && k <= |batch|
    ensures RunLoop(batch, attempts, category, now, tracker, k).tally.failed == Count(attempts[..k], IsFailure)
  {
    if k > 0 {
      RunLoopStep(batch, attempts, category, now, tracker, k);
      RunLoopFailed(batch, attempts, category, now, tracker, k - 1);
      CountPrefixStep(attempts, k - 1, IsFailure);
    }
  }

  /** Every attempt is exactly one of sent, skipped or a failure. */
  lemma {:induction false} OutcomesPartition(attempts: seq<Attempt>)
    ensures Count(attempts, IsSent) + Count(attempts, IsSkipped) + Count(attempts, IsFailure) == |attempts|
  {
    if attempts != [] {
      var k := |attempts| - 1;
      assert attempts[..k + 1] == attempts;
      CountPrefixStep(attempts, k, IsSent);
      CountPrefixStep(attempts, k, IsSkipped);
      CountPrefixStep(attempts, k, IsFailure);
      OutcomesPartition(attempts[..k]);
    }
  }

  /** The loop's tallies count the outcomes, and every user is counted once. */
  lemma RunLoopTally(batch: seq<CategorizedUser>, attempts: seq<Attempt>,
                     category: Category, now: int, tracker: Tracker, k: nat)
    requires |attempts| == |batch| && k <= |batch|
    ensures var st := RunLoop(batch, attempts, category, now, tracker, k);
            && st.tally.sent == Count(attempts[..k], IsSent)
            && st.tally.skipped == Count(attempts[..k], IsSkipped)
            && st.tally.failed == Count(attempts[..k], IsFailure)
            && st.tally.sent + st.tally.skipped + st.tally.failed == k
            && |st.log| == st.tally.sent
            && st.log == SentRows(batch, attempts, category, k)
  {
    RunLoopLog(batch, attempts, category, now, tracker, k);
    RunLoopSent(batch, attempts, category, now, tracker, k);
    RunLoopSkipped(batch, attempts, category, now, tracker, k);
    RunLoopFailed(batch, attempts, category, now, tracker, k);
    OutcomesPartition(attempts[..k]);
  }

  /** The tracker after `k` users, following only the marks: each sent or
      skipped user is marked with the picked category and `now`. */
  function TrackerAt(batch: seq<CategorizedUser>, attempts: seq<Attempt>, category: Category,
                     now: int, tracker: Tracker, k: nat): Tracker
    requires |attempts| == |batch| && k <= |batch|
  {
    if k == 0 then tracker
    else
      var t := TrackerAt(batch, attempts, category, now, tracker, k - 1);
      if IsSent(attempts[k - 1]) || IsSkipped(attempts[k - 1]) then MarkUserSent(t, batch[k - 1].id, category, now)
      else t
  }

  /** The loop's tracker is the one the marks alone produce. */
  lemma {:induction false} RunLoopTrackerAt(batch: seq<CategorizedUser>, attempts: seq<Attempt>,
                                            category: Category, now: int, tracker: Tracker, k: nat)
    requires |attempts| == |batch| && k <= |batch|
    ensures RunLoop(batch, attempts, category, now, tracker, k).tracker
            == TrackerAt(batch, attempts, category, now, tracker, k)
  {
    if k > 0 {
      RunLoopTrackerStep(batch, attempts, category, now, tracker, k);
      RunLoopTrackerAt(batch, attempts, category, now, tracker, k - 1);
    }
  }

  /** The tracked ids after `k` steps: the initial ones and the marked ones. */
  lemma {:induction false} TrackerAtKeys(batch: seq<CategorizedUser>, attempts: seq<Attempt>,
                                         category: Category, now: int, tracker: Tracker, k: nat)
    requires |attempts| == |batch| && k <= |batch|
    ensures TrackerAt(batch, attempts, category, now, tracker, k).Keys
            == tracker.Keys + MarkedIds(batch, attempts, k)
  {
    if k > 0 {
      TrackerAtKeys(batch, attempts, category, now, tracker, k - 1);
      MarkedIdsStep(batch, attempts, k);
    }
  }

  /** Marked ids carry the picked category and `now`; other entries are
      kept. */
  lemma {:induction false} TrackerAtValues(batch: seq<CategorizedUser>, attempts: seq<Attempt>,
                                           category: Category, now: int, tracker: Tracker, k: nat)
    requires |attempts| == |batch| && k <= |batch|
    ensures var t := TrackerAt(batch, attempts, category, now, tracker, k);
            && (forall id :: id in MarkedIds(batch, attempts, k) ==>
                  id in t && t[id] == TrackerEntry(category, now))
            && (forall id :: id in tracker && id !in MarkedIds(batch, attempts, k) ==>
                  id in t && t[id] == tracker[id])
  {
    if k > 0 {
      MarkedIdsStep(batch, attempts, k);
      TrackerAtValues(batch, attempts, category, now, tracker, k - 1);
    }
  }

  /** Sent and skipped users are tracked (with the picked category); failed
      users and thrown errors leave the tracker alone. */
  lemma RunLoopTracker(batch: seq<CategorizedUser>, attempts: seq<Attempt>,
                       category: Category, now: int, tracker: Tracker, k: nat)
    requires |attempts| == |batch| && k <= |batch|
    ensures var st := RunLoop(batch, attempts, category, now, tracker, k);
            && st.tracker.Keys == tracker.Keys + MarkedIds(batch, attempts, k)
            && (forall id :: id in MarkedIds(batch, attempts, k) ==>
                  st.tracker[id] == TrackerEntry(category, now))
            && (forall id :: id in tracker && id !in MarkedIds(batch, attempts, k) ==>
                  st.tracker[id] == tracker[id])
  {
    RunLoopTrackerAt(batch, attempts, category, now, tracker, k);
    TrackerAtKeys(batch, attempts, category, now, tracker, k);
    TrackerAtValues(batch, attempts, category, now, tracker, k);
  }

  /** The pause after each user follows the pacing rule. */
  lemma {:induction false} RunLoopPauses(batch: seq<CategorizedUser>, attempts: seq<Attempt>,
                                         category: Category, now: int, tracker: Tracker, k: nat)
    requires |attempts| == |batch| && k <= |batch|
    ensures var st := RunLoop(batch, attempts, category, now, tracker, k);
            && |st.pauses| == k
            && forall i :: 0 <= i < k ==> st.pauses[i] == ExpectedPause(attempts, i)
  {
    if k > 0 {
      var prev := RunLoop(batch, attempts, category, now, tracker, k - 1);
      var st := RunLoop(batch, attempts, category, now, tracker, k);
      RunLoopPauseStep(batch, attempts, category, now, tracker, k);
      RunLoopTally(batch, attempts, category, now, tracker, k);
      RunLoopPauses(batch, attempts, category, now, tracker, k - 1);
      assert st.pauses[k - 1] == ExpectedPause(attempts, k - 1);
      forall i | 0 <= i < k - 1
        ensures st.pauses[i] == ExpectedPause(attempts, i)
      {
        assert st.pauses[i] == prev.pauses[i];
      }
    }
  }

  /** What step `k` does to the tallies, the log and the tracker. */
  lemma RunLoopStep(batch: seq<CategorizedUser>, attempts: seq<Attempt>,
                    category: Category, now: int, tracker: Tracker, k: nat)
    requires |attempts| == |batch| && 0 < k <= |batch|
    ensures var prev := RunLoop(batch, attempts, category, now, tracker, k - 1);
            var st := RunLoop(batch, attempts, category, now, tracker, k);
            var a := attempts[k - 1];
            && st.tally.sent == prev.tally.sent + (if IsSent(a) then 1 else 0)
            && st.tally.skipped == prev.tally.skipped + (if IsSkipped(a) then 1 else 0)
            && st.tally.failed == prev.tally.failed + (if IsFailure(a) then 1 else 0)
            && |st.log| == |prev.log| + (if IsSent(a) then 1 else 0)
  {
    var prev := RunLoop(batch, attempts, category, now, tracker, k - 1);
    assert RunLoop(batch, attempts, category, now, tracker, k)
        == LoopStep(prev, batch[k - 1], attempts[k - 1], category, now, k - 1, |batch|);
  }

  /** What step `k` does to the tracker. */
  lemma RunLoopTrackerStep(batch: seq<CategorizedUser>, attempts: seq<Attempt>,
                           category: Category, now: int, tracker: Tracker, k: nat)
    requires |attempts| == |batch| && 0 < k <= |batch|
    ensures var prev := RunLoop(batch, attempts, category, now, tracker, k - 1);
            var a := attempts[k - 1];
            RunLoop(batch, attempts, category, now, tracker, k).tracker
            == (if IsSent(a) || IsSkipped(a) then MarkUserSent(prev.tracker, batch[k - 1].id, category, now)
                else prev.tracker)
  {
    var prev := RunLoop(batch, attempts, category, now, tracker, k - 1);
    assert RunLoop(batch, attempts, category, now, tracker, k)
        == LoopStep(prev, batch[k - 1], attempts[k - 1], category, now, k - 1, |batch|);
  }

  /** Step `k` adds the user's id to the marked ids exactly when the user
      was sent or skipped. */
  lemma MarkedIdsStep(batch: seq<CategorizedUser>, attempts: seq<Attempt>, k: nat)
    requires |attempts| == |batch| && 0 < k <= |batch|
    ensures MarkedIds(batch, attempts, k)
            == MarkedIds(batch, attempts, k - 1)
               + (if IsSent(attempts[k - 1]) || IsSkipped(attempts[k - 1]) then {batch[k - 1].id} else {})
  {
  }

  /** Step `k` appends one pause, chosen from the sent count after it. */
  lemma RunLoopPauseStep(batch: seq<CategorizedUser>, attempts: seq<Attempt>,
                         category: Category, now: int, tracker: Tracker, k: nat)
    requires |attempts| == |batch| && 0 < k <= |batch|
    ensures var prev := RunLoop(batch, attempts, category, now, tracker, k - 1);
            var st := RunLoop(batch, attempts, category, now, tracker, k);
            st.pauses == prev.pauses + [if attempts[k - 1].Threw? then NoPause
                                        else PauseAfter(st.tally.sent, k - 1, |batch|)]
  {
    var prev := RunLoop(batch, attempts, category, now, tracker, k - 1);
    assert RunLoop(batch, attempts, category, now, tracker, k)
        == LoopStep(prev, batch[k - 1], attempts[k - 1], category, now, k - 1, |batch|);
  }

  /** When every batch user is untracked and ids are distinct, a user ends up
      tracked exactly when their send was sent or skipped: failures stay
      eligible for a later run. */
  lemma FailedUsersStayUntracked(batch: seq<CategorizedUser>, attempts: seq<Attempt>,
                                 category: Category, now: int, tracker: Tracker, i: nat)
    requires |attempts| == |batch| && i < |batch|
    requires forall j :: 0 <= j < |batch| ==> batch[j].id !in tracker
    requires forall j, l :: 0 <= j < l < |batch| ==> batch[j].id != batch[l].id
    ensures var st := RunLoop(batch, attempts, category, now, tracker, |batch|);
            batch[i].id in st.tracker <==> IsSent(attempts[i]) || IsSkipped(attempts[i])
  {
    RunLoopTracker(batch, attempts, category, now, tracker, |batch|);
    if batch[i].id in MarkedIds(batch, attempts, |batch|) {
      var j :| 0 <= j < |batch| && (IsSent(attempts[j]) || IsSkipped(attempts[j])) && batch[j].id == batch[i].id;
      assert j == i;
    }
  }

  /** As written, the session-break test looks at the running sent count, so
      once ten messages are out, a following skipped or failed user (count
      still ten) gets a session break too. */
  lemma RepeatedBreakAfterTenthSend(attempts: seq<Attempt>, i: nat)
    requires i + 2 < |attempts|
    requires Count(attempts[..i + 1], IsSent) == SESSION_BREAK_EVERY
    requires attempts[i + 1].Returned? && attempts[i + 1].result.status != Sent
    ensures ExpectedPause(attempts, i + 1) == SessionBreak
  {
    CountPrefixStep(attempts, i + 1, IsSent);
  }
}

=== FILE: categorize.dfy ===
/** The lifecycle categoriser of `categorize.js`: a first-match rule chain
    from a user row to one of six categories, its per-row decoration, the
    first-name extractor and the per-category counts. Timestamps are integer
    milliseconds and the current time `now` is a parameter. */
module Categorize {
  import opened Wrappers
  import opened Seqs
  import opened Text

  type UserId = string

  /** Milliseconds in a 24-hour day. */
  const DAY_MS: int := 24 * 60 * 60 * 1000

  /** The dormancy threshold: thirty 24-hour days, in milliseconds. */
  const THIRTY_DAYS_MS: int := 30 * DAY_MS

  datatype Category =
    | NoKyc
    | KycNoTransactions
    | KycLowActivity
    | ActiveNoReferrals
    | ActiveWithReferrals
    | Dormant

  /** The categories in the declaration order of `CATEGORIES`. */
  const AllCategories: seq<Category> :=
    [NoKyc, KycNoTransactions, KycLowActivity, ActiveNoReferrals, ActiveWithReferrals, Dormant]

  /** A user row as the database collaborator returns it. Transaction and
      referral counts are cast to integers by the query; the two volume
      columns and the referral earnings are left out. */
  datatype User = User(
    id: UserId,
    displayName: Option<string>,
    phoneNumber: string,
    email: Option<string>,
    kycVerified: bool,
    onrampCount: nat,
    offrampCount: nat,
    lastOnramp: Option<int>,
    lastOfframp: Option<int>,
    referralCount: nat)

  function TotalTxns(u: User): nat {
    u.onrampCount + u.offrampCount
  }

  /** The later of the two last-transaction timestamps, or the one present,
      or none. */
  function LastTxnTime(u: User): (r: Option<int>)
    ensures r.None? <==> u.lastOnramp.None? && u.lastOfframp.None?
    ensures r.Some? ==> r == u.lastOnramp || r == u.lastOfframp
    ensures r.Some? && u.lastOnramp.Some? ==> u.lastOnramp.value <= r.value
    ensures r.Some? && u.lastOfframp.Some? ==> u.lastOfframp.value <= r.value
  {
    match (u.lastOnramp, u.lastOfframp)
    case (Some(a), Some(b)) => Some(if a >= b then a else b)
    case (Some(a), None) => Some(a)
    case (None, Some(b)) => Some(b)
    case (None, None) => None
  }

  /** More than thirty days since the last transaction; false when the user
      has no transaction timestamp. `(now - last) / DAY > 30` over the reals
      is `now - last > 30 * DAY`. */
  predicate Stale(u: User, now: int) {
    match LastTxnTime(u)
    case Some(t) => now - t > THIRTY_DAYS_MS
    case None => false
  }

  /** The five guarded rules in source order; `None` means control fell
      through to the fallback return. The rules cover every input. */
  function RuleChain(u: User, now: int): (r: Option<Category>)
    ensures r.Some?
  {
    var total := TotalTxns(u);
    if !u.kycVerified then Some(NoKyc)
    else if total == 0 then Some(KycNoTransactions)
    else if total >= 4 && Stale(u, now) then Some(Dormant)
    else if 1 <= total <= 3 then Some(KycLowActivity)
    else if total >= 4 then
      (if u.referralCount > 0 then Some(ActiveWithReferrals) else Some(ActiveNoReferrals))
    else None
  }

  /** A declarative description of each category, independent of rule
      order: the conditions that put a user in `c`. */
  predicate Describes(u: User, now: int, c: Category) {
    var total := TotalTxns(u);
    match c
    case NoKyc => !u.kycVerified
    case KycNoTransactions => u.kycVerified && total == 0
    case KycLowActivity => u.kycVerified && 1 <= total <= 3
    case Dormant => u.kycVerified && total >= 4 && Stale(u, now)
    case ActiveWithReferrals => u.kycVerified && total >= 4 && !Stale(u, now) && u.referralCount > 0
    case ActiveNoReferrals => u.kycVerified && total >= 4 && !Stale(u, now) && u.referralCount == 0
  }

  /** `categorizeUser`: the rule chain with its fallback to `NO_KYC`. */
  function CategorizeUser(u: User, now: int): (c: Category)
    ensures Describes(u, now, c)
    ensures !u.kycVerified ==> c == NoKyc
    ensures u.kycVerified && TotalTxns(u) == 0 ==> c == KycNoTransactions
    ensures u.kycVerified && TotalTxns(u) >= 4 && Stale(u, now) ==> c == Dormant
    ensures u.kycVerified && 1 <= TotalTxns(u) <= 3 ==> c == KycLowActivity
    ensures u.kycVerified && TotalTxns(u) >= 4 && !Stale(u, now) ==>
              c == (if u.referralCount > 0 then ActiveWithReferrals else ActiveNoReferrals)
  {
    RuleChain(u, now).GetOr(NoKyc)
  }

  /** The six descriptions are mutually exclusive and jointly exhaustive,
      so first-match order only matters through `Describes` itself. */
  lemma CategoryIsUnique(u: User, now: int, c: Category)
    ensures Describes(u, now, c) <==> c == CategorizeUser(u, now)
  {
  }

  /** A user exactly thirty days past their last transaction is not dormant. */
  lemma ExactlyThirtyDaysIsNotDormant(u: User, now: int)
    requires u.kycVerified && TotalTxns(u) >= 4
    requires LastTxnTime(u) == Some(now - THIRTY_DAYS_MS)
    ensures CategorizeUser(u, now) != Dormant
  {
  }

  /** Worked example: five transactions, the later 5 days ago, no
      referrals: not dormant, so `ACTIVE_NO_REFERRALS`. */
  lemma ActiveNoReferralsExample(now: int)
    ensures var u := User("u1", Some("Amina Wanjiru"), "0712345678", None, true, 2, 3,
                          Some(now - 10 * DAY_MS), Some(now - 5 * DAY_MS), 0);
            TotalTxns(u) == 5 && LastTxnTime(u) == Some(now - 5 * DAY_MS) &&
            CategorizeUser(u, now) == ActiveNoReferrals
  {
  }

  /** `extractFirstName`: null for a missing, empty or all-whitespace name,
      else the first whitespace-delimited token of the trimmed name. */
  function ExtractFirstName(displayName: Option<string>): (r: Option<string>)
    ensures r.None? <==> displayName.None? || AllSpace(displayName.value)
    ensures r.Some? ==> r.value != [] && NoSpace(r.value)
    ensures r.Some? ==>
              var t := Trim(displayName.value);
              |r.value| <= |t| && r.value == t[..|r.value|]
              && (|r.value| == |t| || IsSpace(t[|r.value|]))
  {
    match displayName
    case None => None
    case Some(s) =>
      if s == [] || Trim(s) == [] then None
      else Some(FirstToken(Trim(s)))
  }

  /** The decorated row `categorizeAllUsers` builds for each user. */
  datatype CategorizedUser = CategorizedUser(
    id: UserId,
    firstName: Option<string>,
    phoneNumber: string,
    email: Option<string>,
    kycVerified: bool,
    totalTxns: nat,
    onrampCount: nat,
    offrampCount: nat,
    lastTxnDate: Option<int>,
    referralCount: nat,
    category: Category)

  function Decorate(u: User, now: int): CategorizedUser {
    CategorizedUser(u.id, ExtractFirstName(u.displayName), u.phoneNumber, u.email,
                    u.kycVerified, TotalTxns(u), u.onrampCount, u.offrampCount,
                    LastTxnTime(u), u.referralCount, CategorizeUser(u, now))
  }

  /** `categorizeAllUsers`: one decorated row per input row, in input order. */
  function CategorizeAllUsers(users: seq<User>, now: int): (r: seq<CategorizedUser>)
    ensures |r| == |users|
    ensures forall i :: 0 <= i < |r| ==>
              && r[i].id == users[i].id
              && r[i].phoneNumber == users[i].phoneNumber
              && r[i].totalTxns == users[i].onrampCount + users[i].offrampCount
              && r[i].category == CategorizeUser(users[i], now)
              && r[i].firstName == ExtractFirstName(users[i].displayName)
              && r[i].lastTxnDate == LastTxnTime(users[i])
  {
    seq(|users|, i requires 0 <= i < |users| => Decorate(users[i], now))
  }

  /** The database key of a fetched row, and of a decorated one. */
  const UserKey: User -> UserId := (u: User) => u.id
  const RowKey: CategorizedUser -> UserId := (u: CategorizedUser) => u.id

  /** Decoration keeps ids, so distinct user ids stay distinct. */
  lemma CategorizeKeepsIdsDistinct(users: seq<User>, now: int)
    requires KeysDistinct(users, UserKey)
    ensures KeysDistinct(CategorizeAllUsers(users, now), RowKey)
  {
    var rows := CategorizeAllUsers(users, now);
    forall j, l | 0 <= j < l < |rows|
      ensures RowKey(rows[j]) != RowKey(rows[l])
    {
      assert UserKey(users[j]) != UserKey(users[l]);
    }
  }

  function HasCategory(c: Category): CategorizedUser -> bool {
    (u: CategorizedUser) => u.category == c
  }

  /** The number of categorised users in category `c`. */
  function CountIn(users: seq<CategorizedUser>, c: Category): nat {
    Count(users, HasCategory(c))
  }

  /** Sum of the six per-category counts. */
  function SumOfCounts(counts: map<Category, nat>): nat
    requires forall c :: c in counts
  {
    counts[NoKyc] + counts[KycNoTransactions] + counts[KycLowActivity]
      + counts[ActiveNoReferrals] + counts[ActiveWithReferrals] + counts[Dormant]
  }

  /** The counting half of `printCategorySummary`. */
  function CategoryCounts(users: seq<CategorizedUser>): (r: map<Category, nat>)
    ensures forall c :: c in r
    ensures forall c :: r[c] == CountIn(users, c)
    ensures SumOfCounts(r) == |users|
  {
    EveryCategoryListed();
    CountsPartition(users);
    map c | c in AllCategories :: CountIn(users, c)
  }

  /** `AllCategories` names every category. */
  lemma EveryCategoryListed()
    ensures forall c: Category :: c in AllCategories
  {
    forall c: Category
      ensures c in AllCategories
    {
      match c
      case NoKyc => assert AllCategories[0] == c;
      case KycNoTransactions => assert AllCategories[1] == c;
      case KycLowActivity => assert AllCategories[2] == c;
      case ActiveNoReferrals => assert AllCategories[3] == c;
      case ActiveWithReferrals => assert AllCategories[4] == c;
      case Dormant => assert AllCategories[5] == c;
    }
  }

  /** Every categorised user is counted in exactly one category. */
  lemma {:induction false} CountsPartition(users: seq<CategorizedUser>)
    ensures CountIn(users, NoKyc) + CountIn(users, KycNoTransactions)
            + CountIn(users, KycLowActivity) + CountIn(users, ActiveNoReferrals)
            + CountIn(users, ActiveWithReferrals) + CountIn(users, Dormant) == |users|
  {
    if users != [] {
      var k := |users| - 1;
      assert users[..k + 1] == users;
      forall c: Category
        ensures CountIn(users, c) == CountIn(users[..k], c) + (if users[k].category == c then 1 else 0)
      {
        CountPrefixStep(users, k, HasCategory(c));
      }
      CountsPartition(users[..k]);
    }
  }
}

=== FILE: cli.dfy ===
/** The one-shot command line of `index.js`: batch selection from the
    arguments, the per-user results of a dry or a live run, the send log,
    the pacing, and the closing summary. */
module Cli {
  import opened Wrappers
  import opened Seqs
  import opened Categorize
  import opened WhatsApp
  import opened Campaign

  /** The parsed options. `limit` is the integer given to `--limit`
      (default `DAILY_CAP`). */
  datatype Args = Args(category: Option<Category>, dryRun: bool, limit: int, summary: bool)

  /** The end index `Array.prototype.slice(0, e)` uses on a sequence of
      length `n`: a negative end counts back from the end. */
  function SliceEnd(n: nat, e: int): (r: nat)
    ensures r <= n
    ensures e >= 0 ==> r == (if e < n then e else n)
    ensures e < 0 ==> r == (if n + e > 0 then n + e else 0)
  {
    if e < 0 then (if n + e > 0 then n + e else 0)
    else if e < n then e else n
  }

  function Min(a: int, b: int): int {
    if a < b then a else b
  }

  /** The users of `category` in input order. */
  function Target(users: seq<CategorizedUser>, category: Category): (r: seq<CategorizedUser>)
    ensures forall u :: u in r <==> u in users && u.category == category
    ensures |r| == CountIn(users, category)
  {
    CountIsFilterLength(users, HasCategory(category));
    Filter(users, HasCategory(category))
  }

  /** The batch as the source selects it:
      `targetUsers.slice(0, Math.min(limit, DAILY_CAP))`. */
  function SelectBatchAsWritten(users: seq<CategorizedUser>, category: Category, limit: int): (r: seq<CategorizedUser>)
    ensures var t := Target(users, category);
            |r| == SliceEnd(|t|, Min(limit, DAILY_CAP)) && r == t[..|r|]
  {
    var t := Target(users, category);
    t[..SliceEnd(|t|, Min(limit, DAILY_CAP))]
  }

  /** A negative `--limit` reaches `slice` unclamped and counts back from
      the end: `--limit -1` with 52 users in the category selects 51, more
      than the daily cap. */
  lemma NegativeLimitExceedsCap(users: seq<CategorizedUser>, category: Category)
    requires CountIn(users, category) == DAILY_CAP + 2
    ensures |SelectBatchAsWritten(users, category, -1)| == DAILY_CAP + 1
  {
  }

  /** The batch with the cap clamped to `[0, DAILY_CAP]`. */
  function SelectBatch(users: seq<CategorizedUser>, category: Category, limit: int): (r: seq<CategorizedUser>)
    ensures var t := Target(users, category);
            && |r| <= DAILY_CAP
            && |r| <= |t|
            && r == t[..|r|]
            && (limit >= 0 ==> |r| == Min(Min(limit, DAILY_CAP), |t|))
            && (limit <= 0 ==> r == [])
            && forall u :: u in r ==> u in users && u.category == category
  {
    var t := Target(users, category);
    var cap := if limit < 0 then 0 else Min(limit, DAILY_CAP);
    t[..Min(cap, |t|)]
  }

  /** For every limit the source handles as intended, the corrected selection
      is the source's. */
  lemma SelectBatchAgrees(users: seq<CategorizedUser>, category: Category, limit: int)
    requires limit >= 0
    ensures SelectBatch(users, category, limit) == SelectBatchAsWritten(users, category, limit)
  {
  }

  /** The row pushed to `results` for one user. A thrown generation or send
      gives an `error` row with the raw phone; a dry run records the
      message; a live row spreads the send result, whose phone (the
      formatted number) replaces the raw one. In a dry run only the
      generated message of an attempt is used. */
  function EntryFor(user: CategorizedUser, a: Attempt, dryRun: bool): (e: LogEntry)
    ensures e.userId == user.id && e.name == user.firstName && e.category == user.category
    ensures e.status == Error <==> a.Threw?
    ensures e.status == DryRun <==> a.Returned? && dryRun
    ensures e.status.Delivery? <==> a.Returned? && !dryRun
    ensures e.status.Delivery? ==> e.status.status == a.result.status && e.phone == a.result.phone
    ensures !e.status.Delivery? ==> e.phone == user.phoneNumber
    ensures a.Threw? ==> e.error == Some(a.error) && e.message.None?
    ensures a.Returned? ==> e.message == Some(a.message)
    ensures e.status == DryRun ==> e.error.None?
    ensures e.status.Delivery? ==> e.error == a.result.error
  {
    match a
    case Threw(err) =>
      LogEntry(user.id, user.phoneNumber, user.firstName, user.category, None, Error, Some(err))
    case Returned(message, result) =>
      if dryRun then LogEntry(user.id, user.phoneNumber, user.firstName, user.category, Some(message), DryRun, None)
      else LogEntry(user.id, result.phone, user.firstName, user.category, Some(message),
                    Delivery(result.status), result.error)
  }

  /** The loop's state: `results`, the rows given to `appendLog`, the
      running `sentCount` and the pause taken after each user. */
  datatype CliState = CliState(results: seq<LogEntry>, sendLog: seq<LogEntry>, sentCount: nat, pauses: seq<Pause>)

  /** One iteration for user `i` of `n`. Only a live send that resolved is
      logged, counted and paced. */
  function CliStep(st: CliState, user: CategorizedUser, a: Attempt, dryRun: bool, i: nat, n: nat): (r: CliState)
    requires i < n
    ensures r.results == st.results + [EntryFor(user, a, dryRun)]
    ensures r.sendLog == st.sendLog + (if a.Returned? && !dryRun then [EntryFor(user, a, dryRun)] else [])
    ensures r.sentCount == st.sentCount + (if IsSent(a) && !dryRun then 1 else 0)
    ensures r.pauses == st.pauses + [if dryRun || a.Threw? then NoPause else PauseAfter(r.sentCount, i, n)]
  {
    var e := EntryFor(user, a, dryRun);
    if a.Threw? || dryRun then st.(results := st.results + [e], pauses := st.pauses + [NoPause])
    else
      var sent := st.sentCount + (if IsSent(a) then 1 else 0);
      CliState(st.results + [e], st.sendLog + [e], sent, st.pauses + [PauseAfter(sent, i, n)])
  }

  /** The state after the first `k` users. */
  function CliLoop(batch: seq<CategorizedUser>, attempts: seq<Attempt>, dryRun: bool, k: nat): (r: CliState)
    requires |attempts| == |batch| && k <= |batch|
    ensures |r.results| == k && |r.pauses| == k
    ensures r.sentCount <= |r.sendLog| <= |r.results|
    ensures dryRun ==> r.sendLog == [] && r.sentCount == 0
  {
    if k == 0 then CliState([], [], 0, [])
    else CliStep(CliLoop(batch, attempts, dryRun, k - 1), batch[k - 1], attempts[k - 1], dryRun, k - 1, |batch|)
  }

  function HasStatus(s: EntryStatus): LogEntry -> bool {
    (e: LogEntry) => e.status == s
  }

  function IsDeliveryRow(): LogEntry -> bool {
    (e: LogEntry) => e.status.Delivery?
  }

  /** The pause after user `i`: none in a dry run, otherwise the pacing rule
      of the live loop. */
  function CliPause(attempts: seq<Attempt>, dryRun: bool, i: nat): Pause
    requires i < |attempts|
  {
    if dryRun then NoPause else ExpectedPause(attempts, i)
  }

  /** The `k`-th state is the `(k-1)`-th one stepped with user `k-1`. */
  lemma CliLoopUnfold(batch: seq<CategorizedUser>, attempts: seq<Attempt>, dryRun: bool, k: nat)
    requires |attempts| == |batch| && 0 < k <= |batch|
    ensures var prev := CliLoop(batch, attempts, dryRun, k - 1);
            var st := CliLoop(batch, attempts, dryRun, k);
            var e := EntryFor(batch[k - 1], attempts[k - 1], dryRun);
            && st.results == prev.results + [e]
            && st.sendLog == prev.sendLog + (if e.status.Delivery? then [e] else [])
            && st.sentCount == prev.sentCount + (if e.status == Delivery(Sent) then 1 else 0)
            && st.pauses == prev.pauses + [if dryRun || attempts[k - 1].Threw? then NoPause
                                            else PauseAfter(st.sentCount, k - 1, |batch|)]
  {
    var prev := CliLoop(batch, attempts, dryRun, k - 1);
    assert CliLoop(batch, attempts, dryRun, k) == CliStep(prev, batch[k - 1], attempts[k - 1], dryRun, k - 1, |batch|);
  }

  /** One row per user, in batch order. */
  lemma {:induction false} CliLoopRows(batch: seq<CategorizedUser>, attempts: seq<Attempt>, dryRun: bool, k: nat)
    requires |attempts| == |batch| && k <= |batch|
    ensures var st := CliLoop(batch, attempts, dryRun, k);
            && |st.results| == k
            && (forall i :: 0 <= i < k ==> st.results[i] == EntryFor(batch[i], attempts[i], dryRun))
  {
    if k > 0 {
      var prev := CliLoop(batch, attempts, dryRun, k - 1);
      var st := CliLoop(batch, attempts, dryRun, k);
      CliLoopUnfold(batch, attempts, dryRun, k);
      CliLoopRows(batch, attempts, dryRun, k - 1);
      forall i | 0 <= i < k
        ensures st.results[i] == EntryFor(batch[i], attempts[i], dryRun)
      {
        if i < k - 1 {
          assert st.results[i] == prev.results[i];
        }
      }
    }
  }

  /** The send log holds exactly the live rows, in order. */
  lemma {:induction false} CliLoopSendLog(batch: seq<CategorizedUser>, attempts: seq<Attempt>, dryRun: bool, k: nat)
    requires |attempts| == |batch| && k <= |batch|
    ensures var st := CliLoop(batch, attempts, dryRun, k);
            st.sendLog == Filter(st.results, IsDeliveryRow())
  {
    if k > 0 {
      var prev := CliLoop(batch, attempts, dryRun, k - 1);
      var e := EntryFor(batch[k - 1], attempts[k - 1], dryRun);
      CliLoopUnfold(batch, attempts, dryRun, k);
      CliLoopSendLog(batch, attempts, dryRun, k - 1);
      FilterConcat(prev.results, [e], IsDeliveryRow());
      assert [e][1..] == [];
    }
  }

  /** `sentCount` is the number of sent rows, and the number of sent
      attempts in a live run. */
  lemma {:induction false} CliLoopSent(batch: seq<CategorizedUser>, attempts: seq<Attempt>, dryRun: bool, k: nat)
    requires |attempts| == |batch| && k <= |batch|
    ensures var st := CliLoop(batch, attempts, dryRun, k);
            && st.sentCount == Count(st.results, HasStatus(Delivery(Sent)))
            && st.sentCount == (if dryRun then 0 else Count(attempts[..k], IsSent))
  {
    if k > 0 {
      var prev := CliLoop(batch, attempts, dryRun, k - 1);
      var e := EntryFor(batch[k - 1], attempts[k - 1], dryRun);
      CliLoopUnfold(batch, attempts, dryRun, k);
      CliLoopSent(batch, attempts, dryRun, k - 1);
      CountSnoc(prev.results, e, HasStatus(Delivery(Sent)));
      CountPrefixStep(attempts, k - 1, IsSent);
    }
  }

  /** The pause after each user follows the pacing rule in a live run and is
      none in a dry run. */
  lemma {:induction false} CliLoopPauses(batch: seq<CategorizedUser>, attempts: seq<Attempt>, dryRun: bool, k: nat)
    requires |attempts| == |batch| && k <= |batch|
    ensures var st := CliLoop(batch, attempts, dryRun, k);
            && |st.pauses| == k
            && (forall i :: 0 <= i < k ==> st.pauses[i] == CliPause(attempts, dryRun, i))
  {
    if k > 0 {
      CliLoopUnfold(batch, attempts, dryRun, k);
      CliLoopPauses(batch, attempts, dryRun, k - 1);
      CliLoopSent(batch, attempts, dryRun, k);
    }
  }

  /** The counts printed at the end of the session. */
  datatype Summary = Summary(sent: nat, failed: nat, skipped: nat, errors: nat, dryRun: nat)

  function SummaryOf(results: seq<LogEntry>): (s: Summary)
    ensures s.sent == Count(results, HasStatus(Delivery(Sent)))
    ensures s.failed == Count(results, HasStatus(Delivery(Failed)))
    ensures s.skipped == Count(results, HasStatus(Delivery(Skipped)))
    ensures s.errors == Count(results, HasStatus(Error))
    ensures s.dryRun == Count(results, HasStatus(DryRun))
    ensures s.sent + s.failed + s.skipped + s.errors + s.dryRun == |results|
  {
    SummaryPartition(results);
    Summary(Count(results, HasStatus(Delivery(Sent))), Count(results, HasStatus(Delivery(Failed))),
            Count(results, HasStatus(Delivery(Skipped))), Count(results, HasStatus(Error)),
            Count(results, HasStatus(DryRun)))
  }

  /** Every row has exactly one of the five statuses. */
  lemma {:induction false} SummaryPartition(results: seq<LogEntry>)
    ensures Count(results, HasStatus(Delivery(Sent))) + Count(results, HasStatus(Delivery(Failed)))
            + Count(results, HasStatus(Delivery(Skipped))) + Count(results, HasStatus(Error))
            + Count(results, HasStatus(DryRun)) == |results|
  {
    if results != [] {
      var k := |results| - 1;
      assert results[..k + 1] == results;
      CountPrefixStep(results, k, HasStatus(Delivery(Sent)));
      CountPrefixStep(results, k, HasStatus(Delivery(Failed)));
      CountPrefixStep(results, k, HasStatus(Delivery(Skipped)));
      CountPrefixStep(results, k, HasStatus(Error));
      CountPrefixStep(results, k, HasStatus(DryRun));
      SummaryPartition(results[..k]);
      match results[k].status {
        case Delivery(st) => assert st == Sent || st == Failed || st == Skipped;
        case Error =>
        case DryRun =>
      }
    }
  }

  /** How `main` ends. */
  datatype CliRun =
    | Fatal(error: string)
    | SummaryOnly(counts: map<Category, nat>)
    | NoCategory(counts: map<Category, nat>)
    | EmptyBatch
    | Done(category: Category, batch: seq<CategorizedUser>, state: CliState, summary: Summary)

  /** `main`: fetch and categorise, honour `--summary`, require a category,
      select the batch, stop early on an empty batch, start WhatsApp for a
      live run, then run the loop. Each ending is characterised exactly. */
  function CliMain(args: Args, fetched: Result<seq<User>>, now: int, init: Result<()>,
                   attempt: nat -> Attempt): (r: CliRun)
    ensures fetched.Err? ==> r == Fatal(fetched.error)
    ensures r.SummaryOnly? <==> fetched.Ok? && args.summary
    ensures r.SummaryOnly? ==> r.counts == CategoryCounts(CategorizeAllUsers(fetched.value, now))
    ensures r.NoCategory? <==> fetched.Ok? && !args.summary && args.category.None?
    ensures r.NoCategory? ==> r.counts == CategoryCounts(CategorizeAllUsers(fetched.value, now))
    ensures r.EmptyBatch? <==>
              fetched.Ok? && !args.summary && args.category.Some?
              && SelectBatch(CategorizeAllUsers(fetched.value, now), args.category.value, args.limit) == []
    ensures r.Fatal? && fetched.Ok? ==> !args.dryRun && init.Err? && r.error == init.error
    ensures r.Done? <==>
              fetched.Ok? && !args.summary && args.category.Some?
              && SelectBatch(CategorizeAllUsers(fetched.value, now), args.category.value, args.limit) != []
              && (args.dryRun || init.Ok?)
    ensures r.Done? ==>
              && args.category == Some(r.category)
              && r.batch == SelectBatch(CategorizeAllUsers(fetched.value, now), r.category, args.limit)
              && 0 < |r.batch| <= DAILY_CAP
              && (forall u :: u in r.batch ==> u.category == r.category)
              && |r.state.results| == |r.batch|
              && (forall i :: 0 <= i < |r.batch| ==>
                    r.state.results[i] == EntryFor(r.batch[i], attempt(i), args.dryRun))
              && r.state.sendLog == Filter(r.state.results, IsDeliveryRow())
              && r.summary == SummaryOf(r.state.results)
              && r.summary.sent + r.summary.failed + r.summary.skipped + r.summary.errors + r.summary.dryRun
                 == |r.batch|
              && (args.dryRun ==> r.state.sendLog == [] && r.state.sentCount == 0)
              && (!args.dryRun ==> r.summary.dryRun == 0 && r.summary.sent == r.state.sentCount)
  {
    match fetched
    case Err(e) => Fatal(e)
    case Ok(rawUsers) =>
      var users := CategorizeAllUsers(rawUsers, now);
      if args.summary then SummaryOnly(CategoryCounts(users))
      else match args.category
        case None => NoCategory(CategoryCounts(users))
        case Some(c) =>
          var batch := SelectBatch(users, c, args.limit);
          if batch == [] then EmptyBatch
          else if !args.dryRun && init.Err? then Fatal(init.error)
          else RunSelected(c, batch, args.dryRun, attempt)
  }

  /** The send loop over a non-empty selected batch and the summary printed
      after it. */
  function RunSelected(c: Category, batch: seq<CategorizedUser>, dryRun: bool,
                       attempt: nat -> Attempt): (r: CliRun)
    ensures r.Done? && r.category == c && r.batch == batch
    ensures |r.state.results| == |batch|
    ensures forall i :: 0 <= i < |batch| ==>
              r.state.results[i] == EntryFor(batch[i], attempt(i), dryRun)
    ensures r.state.sendLog == Filter(r.state.results, IsDeliveryRow())
    ensures r.summary == SummaryOf(r.state.results)
    ensures r.summary.sent + r.summary.failed + r.summary.skipped + r.summary.errors + r.summary.dryRun
            == |batch|
    ensures dryRun ==> r.state.sendLog == [] && r.state.sentCount == 0
    ensures !dryRun ==> r.summary.dryRun == 0 && r.summary.sent == r.state.sentCount
  {
    var attempts := AttemptsFor(batch, attempt);
    var st := CliLoop(batch, attempts, dryRun, |batch|);
    CliRunFacts(batch, attempts, dryRun);
    Done(c, batch, st, SummaryOf(st.results))
  }

  /** The state of a finished loop: one row per user, the send log is the
      live rows, a dry run has no delivery rows and no sends, and a live run
      has no dry-run rows. */
  lemma CliRunFacts(batch: seq<CategorizedUser>, attempts: seq<Attempt>, dryRun: bool)
    requires |attempts| == |batch|
    ensures var st := CliLoop(batch, attempts, dryRun, |batch|);
            && |st.results| == |batch|
            && (forall i :: 0 <= i < |batch| ==> st.results[i] == EntryFor(batch[i], attempts[i], dryRun))
            && st.sendLog == Filter(st.results, IsDeliveryRow())
            && st.sentCount == Count(st.results, HasStatus(Delivery(Sent)))
            && (dryRun ==> st.sendLog == [] && st.sentCount == 0)
            && (!dryRun ==> Count(st.results, HasStatus(DryRun)) == 0)
  {
    var st := CliLoop(batch, attempts, dryRun, |batch|);
    CliLoopRows(batch, attempts, dryRun, |batch|);
    CliLoopSendLog(batch, attempts, dryRun, |batch|);
    CliLoopSent(batch, attempts, dryRun, |batch|);
    if dryRun {
      forall i | 0 <= i < |st.results|
        ensures !IsDeliveryRow()(st.results[i])
      {
      }
      NoneKept(st.results, IsDeliveryRow());
    } else {
      forall i | 0 <= i < |st.results|
        ensures !HasStatus(DryRun)(st.results[i])
      {
      }
      NoneKept(st.results, HasStatus(DryRun));
      CountIsFilterLength(st.results, HasStatus(DryRun));
    }
  }

  lemma {:induction false} NoneKept(s: seq<LogEntry>, p: LogEntry -> bool)
    requires forall i :: 0 <= i < |s| ==> !p(s[i])
    ensures Filter(s, p) == []
  {
    if s != [] {
      NoneKept(s[1..], p);
    }
  }
}

=== FILE: scheduler.dfy ===
/** `scheduler.js`: one automated batch run (fetch, categorise, pick,
    connect, send loop), the random time-of-day draw, the next-run time
    arithmetic and the single re-armed timeout. `Math.random()` draws are
    reals in [0, 1), `now` and the start of the local day are integer
    milliseconds. */
module Scheduler {
  import opened Wrappers
  import opened Categorize
  import opened Seqs
  import opened Campaign

  const MINUTE_MS: int := 60 * 1000
  const HOUR_MS: int := 60 * MINUTE_MS

  /** `Math.floor(u * k)` for a draw `u` in [0, 1). */
  function FloorDraw(u: real, k: int): (r: int)
    requires 0.0 <= u < 1.0
    ensures k > 0 ==> 0 <= r < k
    ensures k <= 0 ==> k <= r <= 0
  {
    ScaledDrawBounds(u, k);
    (u * k as real).Floor
  }

  /** `u * k` lies between 0 and `k`, excluding `k` itself when `k` is positive. */
  lemma ScaledDrawBounds(u: real, k: int)
    requires 0.0 <= u < 1.0
    ensures k > 0 ==> 0.0 <= u * k as real < k as real
    ensures k <= 0 ==> k as real <= u * k as real <= 0.0
  {
    assert k as real - u * k as real == (1.0 - u) * k as real;
    if k > 0 {
      PosTimesPos(1.0 - u, k as real);
      NonNegTimesNonNeg(u, k as real);
    } else {
      NonNegTimesNonPos(1.0 - u, k as real);
      NonNegTimesNonPos(u, k as real);
    }
  }

  lemma PosTimesPos(a: real, b: real)
    requires a > 0.0 && b > 0.0
    ensures a * b > 0.0
  {
  }

  lemma NonNegTimesNonNeg(a: real, b: real)
    requires a >= 0.0 && b >= 0.0
    ensures a * b >= 0.0
  {
  }

  lemma NonNegTimesNonPos(a: real, b: real)
    requires a >= 0.0 && b <= 0.0
    ensures a * b <= 0.0
  {
  }

  datatype HourMinute = HourMinute(hour: int, minute: int)

  /** `randomHourMinute(startHour, endHour)`: an hour in [startHour, endHour)
      (when that window is non-empty) and a minute in [0, 59]. */
  function RandomHourMinute(startHour: int, endHour: int, u1: real, u2: real): (r: HourMinute)
    requires 0.0 <= u1 < 1.0 && 0.0 <= u2 < 1.0
    ensures startHour < endHour ==> startHour <= r.hour < endHour
    ensures 0 <= r.minute <= 59
  {
    HourMinute(startHour + FloorDraw(u1, endHour - startHour), FloorDraw(u2, 60))
  }

  /** The draw `scheduleNextRun` makes: 9..16 hours, 0..59 minutes. */
  lemma DailyWindow(u1: real, u2: real)
    requires 0.0 <= u1 < 1.0 && 0.0 <= u2 < 1.0
    ensures var hm := RandomHourMinute(9, 17, u1, u2);
            9 <= hm.hour <= 16 && 0 <= hm.minute <= 59
  {
  }

  /** `next.setHours(hour, minute, 0, 0)`, moved a day on when not after
      `now`. `dayStart` is the local midnight starting `now`'s day. */
  function NextRunTime(now: int, dayStart: int, hour: int, minute: int): (r: int)
    requires dayStart <= now < dayStart + DAY_MS
    requires 0 <= hour < 24 && 0 <= minute < 60
    ensures now < r <= now + DAY_MS
    ensures r - dayStart == hour * HOUR_MS + minute * MINUTE_MS
            || r - dayStart == DAY_MS + hour * HOUR_MS + minute * MINUTE_MS
    ensures r - dayStart >= DAY_MS ==> dayStart + hour * HOUR_MS + minute * MINUTE_MS <= now
  {
    var today := dayStart + hour * HOUR_MS + minute * MINUTE_MS;
    if today <= now then today + DAY_MS else today
  }

  /** Pending timeouts by id with their fire times, and the last handle
      stored in `scheduledTimeout`. */
  datatype Timers = Timers(handle: Option<nat>, pending: map<nat, int>, nextId: nat)

  const NoTimers: Timers := Timers(None, map[], 0)

  /** At most one timeout is pending, and it is the one the handle names. */
  predicate AtMostOnePending(t: Timers) {
    && (t.handle.Some? ==> t.handle.value < t.nextId)
    && (forall id :: id in t.pending ==> id < t.nextId)
    && (forall id :: id in t.pending ==> t.handle == Some(id))
  }

  /** `clearTimeout(scheduledTimeout)` when a handle is stored. */
  function ClearHandle(t: Timers): (r: Timers)
    ensures r.handle == t.handle && r.nextId == t.nextId
    ensures r.pending.Keys == if t.handle.Some? then t.pending.Keys - {t.handle.value} else t.pending.Keys
  {
    match t.handle
    case Some(id) => t.(pending := t.pending - {id})
    case None => t
  }

  /** `scheduleNextRun`: draw a time, compute the next run, cancel the
      previous timeout and arm a new one. Returns the timers and the delay. */
  function ScheduleNextRun(t: Timers, now: int, dayStart: int, u1: real, u2: real): (r: (Timers, int))
    requires 0.0 <= u1 < 1.0 && 0.0 <= u2 < 1.0
    requires dayStart <= now < dayStart + DAY_MS
    ensures 0 < r.1 <= DAY_MS
    ensures r.0.handle == Some(t.nextId) && r.0.nextId == t.nextId + 1
    ensures t.nextId in r.0.pending && r.0.pending[t.nextId] == now + r.1
    ensures AtMostOnePending(t) && t.handle.Some? ==> t.handle.value !in r.0.pending
    ensures AtMostOnePending(t) ==> AtMostOnePending(r.0) && r.0.pending.Keys == {t.nextId}
  {
    var hm := RandomHourMinute(9, 17, u1, u2);
    var next := NextRunTime(now, dayStart, hm.hour, hm.minute);
    var c := ClearHandle(t);
    (Timers(Some(t.nextId), c.pending[t.nextId := next], t.nextId + 1), next - now)
  }

  /** A pending timeout fires and is no longer pending; the stale handle
      stays in `scheduledTimeout`. */
  function Fire(t: Timers, id: nat): (r: Timers)
    requires id in t.pending
    ensures r.pending.Keys == t.pending.Keys - {id}
    ensures AtMostOnePending(t) ==> AtMostOnePending(r) && r.pending == map[]
  {
    t.(pending := t.pending - {id})
  }

  /** The SIGINT handler's `clearTimeout`: nothing stays pending. */
  function Shutdown(t: Timers): (r: Timers)
    ensures AtMostOnePending(t) ==> r.pending == map[]
  {
    ClearHandle(t)
  }

  /** What can happen to the timers: a `scheduleNextRun`, the stored
      timeout firing, or shutdown. */
  datatype TimerEvent =
    | Schedule(now: int, dayStart: int, u1: real, u2: real)
    | FireHandle
    | Stop

  predicate EventOk(e: TimerEvent) {
    e.Schedule? ==> 0.0 <= e.u1 < 1.0 && 0.0 <= e.u2 < 1.0 && e.dayStart <= e.now < e.dayStart + DAY_MS
  }

  function Apply(t: Timers, e: TimerEvent): Timers
    requires EventOk(e)
  {
    match e
    case Schedule(now, dayStart, u1, u2) => ScheduleNextRun(t, now, dayStart, u1, u2).0
    case FireHandle => if t.handle.Some? && t.handle.value in t.pending then Fire(t, t.handle.value) else t
    case Stop => Shutdown(t)
  }

  function ApplyAll(t: Timers, es: seq<TimerEvent>): Timers
    requires forall i :: 0 <= i < |es| ==> EventOk(es[i])
    decreases |es|
  {
    if es == [] then t else ApplyAll(Apply(t, es[0]), es[1..])
  }

  /** Any sequence of schedule / fire / shutdown steps keeps at most one
      timeout pending. */
  lemma {:induction false} AtMostOneTimerAlways(t: Timers, es: seq<TimerEvent>)
    requires AtMostOnePending(t)
    requires forall i :: 0 <= i < |es| ==> EventOk(es[i])
    ensures AtMostOnePending(ApplyAll(t, es))
    ensures |ApplyAll(t, es).pending| <= 1
    decreases |es|
  {
    if es != [] {
      var t' := Apply(t, es[0]);
      assert AtMostOnePending(t');
      AtMostOneTimerAlways(t', es[1..]);
    } else {
      AtMostOneHasSizeAtMostOne(t);
    }
  }

  lemma AtMostOneHasSizeAtMostOne(t: Timers)
    requires AtMostOnePending(t)
    ensures |t.pending| <= 1
  {
    if t.handle.Some? {
      var h := t.handle.value;
      if h in t.pending {
        assert t.pending.Keys == {h};
      } else {
        assert t.pending.Keys == {};
      }
    } else {
      assert t.pending.Keys == {};
    }
  }

  /** The result of one automated `runBatch`. */
  datatype RunOutcome =
    | Aborted(error: string)
    | CampaignComplete
    | Ran(category: Category, batch: seq<CategorizedUser>, loop: LoopState)

  /** `runBatch` of the scheduler: a failed fetch or a failed WhatsApp start
      aborts before any send; a null pick means the campaign is complete. */
  function SchedulerRunBatch(fetched: Result<seq<User>>, tracker: Tracker, now: int,
                             connect: Result<()>, attempt: nat -> Attempt): (r: RunOutcome)
    ensures fetched.Err? ==> r == Aborted(fetched.error)
    ensures fetched.Ok? ==>
              var p := PickCategory(CategorizeAllUsers(fetched.value, now), tracker);
              && (p.None? <==> r == CampaignComplete)
              && (p.Some? && connect.Err? ==> r == Aborted(connect.error))
              && (p.Some? && connect.Ok? ==> r.Ran?)
              && (r.Ran? ==>
                    && p.Some? && r.category == p.value.category
                    && |r.batch| == (if |p.value.users| < DAILY_CAP then |p.value.users| else DAILY_CAP)
                    && r.batch == p.value.users[..|r.batch|])
    ensures r.Ran? ==> r.loop == RunLoop(r.batch, AttemptsFor(r.batch, attempt), r.category, now, tracker, |r.batch|)
  {
    match fetched
    case Err(e) => Aborted(e)
    case Ok(rawUsers) =>
      var users := CategorizeAllUsers(rawUsers, now);
      match PickCategory(users, tracker)
      case None => CampaignComplete
      case Some(Pick(category, unsent)) =>
        var batch := TakeBatch(unsent, DAILY_CAP);
        match connect
        case Err(e) => Aborted(e)
        case Ok(_) =>
          var attempts := AttemptsFor(batch, attempt);
          Ran(category, batch, RunLoop(batch, attempts, category, now, tracker, |batch|))
  }

  /** The sent-tracker as persisted after the run. */
  function TrackerAfter(r: RunOutcome, tracker: Tracker): Tracker {
    if r.Ran? then r.loop.tracker else tracker
  }

  /** A run that does not reach the loop sends nothing and leaves the
      tracker as it was; a run that does keeps every earlier mark, adds
      exactly the sent and skipped users of its batch, and logs exactly the
      sent rows. */
  lemma NoSendsUnlessRan(fetched: Result<seq<User>>, tracker: Tracker, now: int,
                         connect: Result<()>, attempt: nat -> Attempt)
    ensures var r := SchedulerRunBatch(fetched, tracker, now, connect, attempt);
            && (!r.Ran? ==> TrackerAfter(r, tracker) == tracker)
            && (r.Ran? ==> tracker.Keys <= TrackerAfter(r, tracker).Keys && |r.loop.log| == r.loop.tally.sent)
            && (r.Ran? ==>
                  var attempts := AttemptsFor(r.batch, attempt);
                  && TrackerAfter(r, tracker).Keys == tracker.Keys + MarkedIds(r.batch, attempts, |r.batch|)
                  && r.loop.log == SentRows(r.batch, attempts, r.category, |r.batch|))
  {
    var r := SchedulerRunBatch(fetched, tracker, now, connect, attempt);
    if r.Ran? {
      RunLoopTracker(r.batch, AttemptsFor(r.batch, attempt), r.category, now, tracker, |r.batch|);
      RunLoopTally(r.batch, AttemptsFor(r.batch, attempt), r.category, now, tracker, |r.batch|);
    }
  }

  /** The users of a batch that ran are untracked users of the picked
      category, taken from the categorised rows. */
  lemma RanBatchIsUnsent(fetched: Result<seq<User>>, tracker: Tracker, now: int,
                         connect: Result<()>, attempt: nat -> Attempt)
    ensures var r := SchedulerRunBatch(fetched, tracker, now, connect, attempt);
            r.Ran? ==>
              && fetched.Ok?
              && forall j :: 0 <= j < |r.batch| ==>
                   r.batch[j] in Unsent(CategorizeAllUsers(fetched.value, now), tracker, r.category)
  {
    var r := SchedulerRunBatch(fetched, tracker, now, connect, attempt);
    if r.Ran? {
      var p := PickCategory(CategorizeAllUsers(fetched.value, now), tracker).value;
      forall j | 0 <= j < |r.batch|
        ensures r.batch[j] in p.users
      {
        assert r.batch[j] == p.users[j];
      }
    }
  }

  /** Sent and skipped users of a run are never picked again; a failed user
      is still eligible at the next run. User ids are the database's keys,
      so they are distinct. */
  lemma SkippedNeverRetriedFailedRetried(fetched: Result<seq<User>>, tracker: Tracker, now: int,
                                         connect: Result<()>, attempt: nat -> Attempt, i: nat)
    requires fetched.Ok? ==> KeysDistinct(fetched.value, UserKey)
    ensures var r := SchedulerRunBatch(fetched, tracker, now, connect, attempt);
            r.Ran? && i < |r.batch| ==>
              && fetched.Ok?
              && var u := r.batch[i];
                 var a := attempt(i);
                 && (IsSent(a) || IsSkipped(a) ==> u.id in TrackerAfter(r, tracker))
                 && (IsFailure(a) ==> u in Unsent(CategorizeAllUsers(fetched.value, now), TrackerAfter(r, tracker), r.category))
                 && (IsFailure(a) ==>
                       var next := PickCategory(CategorizeAllUsers(fetched.value, now), TrackerAfter(r, tracker));
                       next.Some? && next.value.category == r.category && u in next.value.users)
  {
    var r := SchedulerRunBatch(fetched, tracker, now, connect, attempt);
    if r.Ran? && i < |r.batch| {
      var users := CategorizeAllUsers(fetched.value, now);
      RanBatchIsUnsent(fetched, tracker, now, connect, attempt);
      BatchIdsDistinct(fetched, tracker, now, connect, attempt);
      FailedUsersStayUntracked(r.batch, AttemptsFor(r.batch, attempt), r.category, now, tracker, i);
      assert r.batch[i] in Unsent(users, tracker, r.category);
      if IsFailure(attempt(i)) {
        PickStableUnderTracking(users, tracker, TrackerAfter(r, tracker), r.category, r.batch[i]);
      }
    }
  }

  /** The batch of a run holds no user twice. */
  lemma BatchIdsDistinct(fetched: Result<seq<User>>, tracker: Tracker, now: int,
                         connect: Result<()>, attempt: nat -> Attempt)
    requires fetched.Ok? ==> KeysDistinct(fetched.value, UserKey)
    ensures var r := SchedulerRunBatch(fetched, tracker, now, connect, attempt);
            r.Ran? ==> forall j, l :: 0 <= j < l < |r.batch| ==> r.batch[j].id != r.batch[l].id
  {
    var r := SchedulerRunBatch(fetched, tracker, now, connect, attempt);
    if r.Ran? {
      var users := CategorizeAllUsers(fetched.value, now);
      var p := PickCategory(users, tracker).value;
      CategorizeKeepsIdsDistinct(fetched.value, now);
      FilterKeepsKeysDistinct(users, IsUnsentIn(tracker, p.category), RowKey);
      forall j, l | 0 <= j < l < |r.batch|
        ensures r.batch[j].id != r.batch[l].id
      {
        assert r.batch[j] == p.users[j] && r.batch[l] == p.users[l];
        assert RowKey(p.users[j]) != RowKey(p.users[l]);
      }
    }
  }
}

=== FILE: seqs.dfy ===
/** Order-preserving filtering of sequences, the model of JavaScript's
    `Array.prototype.filter` and `String.prototype.replace(/[...]/g, '')`. */
module Seqs {

  /** The elements of `s` that satisfy `p`, in their original order. */
  function Filter<T(==,!new)>(s: seq<T>, p: T -> bool): (r: seq<T>)
    ensures |r| <= |s|
    ensures forall x :: x in r <==> x in s && p(x)
  {
    if s == [] then []
    else (if p(s[0]) then [s[0]] else []) + Filter(s[1..], p)
  }

  /** The number of elements of `s` that satisfy `p`. */
  function Count<T>(s: seq<T>, p: T -> bool): nat
  {
    if s == [] then 0 else (if p(s[0]) then 1 else 0) + Count(s[1..], p)
  }

  /** Counting is the length of the filtered sequence (`filter(p).length`). */
  lemma {:induction false} CountIsFilterLength<T(!new)>(s: seq<T>, p: T -> bool)
    ensures Count(s, p) == |Filter(s, p)|
  {
    if s != [] {
      CountIsFilterLength(s[1..], p);
    }
  }

  /** Counting distributes over concatenation. */
  lemma {:induction false} CountConcat<T>(a: seq<T>, b: seq<T>, p: T -> bool)
    ensures Count(a + b, p) == Count(a, p) + Count(b, p)
  {
    if a == [] {
      assert a + b == b;
    } else {
      assert (a + b)[0] == a[0];
      assert (a + b)[1..] == a[1..] + b;
      CountConcat(a[1..], b, p);
    }
  }

  /** Filtering distributes over concatenation: this is what "keeps input
      order" means. */
  lemma {:induction false} FilterConcat<T(!new)>(a: seq<T>, b: seq<T>, p: T -> bool)
    ensures Filter(a + b, p) == Filter(a, p) + Filter(b, p)
  {
    if a == [] {
      assert a + b == b;
    } else {
      assert (a + b)[0] == a[0];
      assert (a + b)[1..] == a[1..] + b;
      FilterConcat(a[1..], b, p);
    }
  }

  /** Filtering a sequence whose every element passes changes nothing. */
  lemma {:induction false} FilterKeepsAll<T(!new)>(s: seq<T>, p: T -> bool)
    requires forall i :: 0 <= i < |s| ==> p(s[i])
    ensures Filter(s, p) == s
  {
    if s != [] {
      assert p(s[0]);
      FilterKeepsAll(s[1..], p);
    }
  }

  /** Counting over a sequence extended by one element. */
  lemma CountSnoc<T>(s: seq<T>, x: T, p: T -> bool)
    ensures Count(s + [x], p) == Count(s, p) + (if p(x) then 1 else 0)
  {
    CountConcat(s, [x], p);
    assert [x][1..] == [];
  }

  /** Counting over the prefix `s[..k+1]` in terms of the prefix `s[..k]`. */
  lemma CountPrefixStep<T>(s: seq<T>, k: nat, p: T -> bool)
    requires k < |s|
    ensures Count(s[..k + 1], p) == Count(s[..k], p) + (if p(s[k]) then 1 else 0)
  {
    assert s[..k + 1] == s[..k] + [s[k]];
    CountSnoc(s[..k], s[k], p);
  }

  /** Filtering twice is filtering once by the conjunction. */
  lemma {:induction false} FilterFilter<T(!new)>(s: seq<T>, p: T -> bool, q: T -> bool, pq: T -> bool)
    requires forall x :: pq(x) == (p(x) && q(x))
    ensures Filter(Filter(s, p), q) == Filter(s, pq)
  {
    if s != [] {
      var head := if p(s[0]) then [s[0]] else [];
      FilterConcat(head, Filter(s[1..], p), q);
      if p(s[0]) {
        assert head[1..] == [];
      }
      FilterFilter(s[1..], p, q, pq);
    }
  }

  /** Every element either passes `p` or its complement `q`. */
  lemma {:induction false} CountComplement<T>(s: seq<T>, p: T -> bool, q: T -> bool)
    requires forall x :: q(x) == !p(x)
    ensures Count(s, p) + Count(s, q) == |s|
  {
    if s != [] {
      CountComplement(s[1..], p, q);
    }
  }
  /** No two elements of `s` share a key. */
  predicate KeysDistinct<T, K(==)>(s: seq<T>, key: T -> K) {
    forall j, l :: 0 <= j < l < |s| ==> key(s[j]) != key(s[l])
  }

  /** Filtering keeps keys distinct. */
  lemma {:induction false} FilterKeepsKeysDistinct<T(!new), K>(s: seq<T>, p: T -> bool, key: T -> K)
    requires KeysDistinct(s, key)
    ensures KeysDistinct(Filter(s, p), key)
  {
    if s != [] {
      var tail := s[1..];
      assert KeysDistinct(tail, key) by {
        forall j, l | 0 <= j < l < |tail|
          ensures key(tail[j]) != key(tail[l])
        {
          assert tail[j] == s[j + 1] && tail[l] == s[l + 1];
        }
      }
      FilterKeepsKeysDistinct(tail, p, key);
      var rest := Filter(tail, p);
      forall x | x in rest
        ensures key(x) != key(s[0])
      {
        var m :| 0 <= m < |tail| && tail[m] == x;
        assert x == s[m + 1];
      }
      var r := Filter(s, p);
      if p(s[0]) {
        assert r == [s[0]] + rest;
        forall j, l | 0 <= j < l < |r|
          ensures key(r[j]) != key(r[l])
        {
          assert r[l] == rest[l - 1] && rest[l - 1] in rest;
          if j > 0 {
            assert r[j] == rest[j - 1];
          }
        }
      } else {
        assert r == rest;
      }
    }
  }
}

=== FILE: server.dfy ===
/** The HTTP server of `server.js`: its in-memory state, the `isRunning`
    run guard around the shared batch, the `/run`, `/categories` and
    `/reset` handlers, boot, and the timer that re-arms itself after each
    batch. The batch body is the scheduler's, with the connection already
    established at boot. */
module Server {
  import opened Wrappers
  import opened Seqs
  import opened Categorize
  import opened Campaign
  import opened Scheduler

  datatype Stats = Stats(totalSent: nat, totalSkipped: nat, totalFailed: nat, batchesRun: nat)

  const ZeroStats: Stats := Stats(0, 0, 0, 0)

  /** `lastRun`: a completed campaign, a finished batch, or an error. */
  datatype LastRun =
    | Complete(time: int)
    | Finished(time: int, category: Category, tally: Tally)
    | BatchError(time: int, error: string)

  /** The module-level variables; `tracker` is the content of the sent-tracker
      file. */
  datatype ServerState = ServerState(
    isRunning: bool,
    waConnected: bool,
    tracker: Tracker,
    stats: Stats,
    lastRun: Option<LastRun>,
    nextRunTime: Option<int>,
    timers: Timers)

  /** The state the process starts in, with whatever tracker is on disk. */
  function Initial(tracker: Tracker): (s: ServerState)
    ensures !s.isRunning && !s.waConnected && s.stats == ZeroStats && AtMostOnePending(s.timers)
  {
    ServerState(false, false, tracker, ZeroStats, None, None, NoTimers)
  }

  datatype SkipReason = AlreadyRunning | WhatsappNotConnected

  /** What `runBatch` resolves with. */
  datatype BatchReply = SkippedBatch(reason: SkipReason) | CampaignDone | Reported(run: LastRun)

  datatype Begin = Rejected(reason: SkipReason) | Begun(state: ServerState)

  /** The guard at the top of `runBatch`: a running batch or a missing
      connection turns the call away; otherwise the batch is marked running. */
  function BeginBatch(s: ServerState): (r: Begin)
    ensures r.Rejected? <==> s.isRunning || !s.waConnected
    ensures r.Rejected? && s.isRunning ==> r.reason == AlreadyRunning
    ensures r.Rejected? && !s.isRunning ==> r.reason == WhatsappNotConnected
    ensures r.Begun? ==> r.state.isRunning && r.state == s.(isRunning := true)
  {
    if s.isRunning then Rejected(AlreadyRunning)
    else if !s.waConnected then Rejected(WhatsappNotConnected)
    else Begun(s.(isRunning := true))
  }

  function AddTally(st: Stats, t: Tally): Stats {
    Stats(st.totalSent + t.sent, st.totalSkipped + t.skipped, st.totalFailed + t.failed, st.batchesRun + 1)
  }

  /** The body of `runBatch` after the guard, ending in the `finally` that
      clears `isRunning`. */
  function FinishBatch(s: ServerState, fetched: Result<seq<User>>, now: int,
                       attempt: nat -> Attempt): (r: (ServerState, BatchReply))
    ensures !r.0.isRunning
    ensures r.0 == s.(isRunning := r.0.isRunning, tracker := r.0.tracker, stats := r.0.stats, lastRun := r.0.lastRun)
    ensures fetched.Err? ==> r.1 == Reported(BatchError(now, fetched.error))
    ensures r.1.CampaignDone? <==>
              fetched.Ok? && forall u :: u in CategorizeAllUsers(fetched.value, now) ==> u.id in s.tracker
    ensures r.1.SkippedBatch? == false
    ensures r.1.Reported? ==> r.0.lastRun == Some(r.1.run)
    ensures r.1.CampaignDone? ==> r.0.lastRun == Some(Complete(now))
    ensures !(r.1.Reported? && r.1.run.Finished?) ==> r.0.stats == s.stats && r.0.tracker == s.tracker
    ensures r.1.Reported? && r.1.run.Finished? ==>
              var t := r.1.run.tally;
              && r.0.stats == AddTally(s.stats, t)
              && 0 < t.sent + t.skipped + t.failed <= DAILY_CAP
              && s.tracker.Keys <= r.0.tracker.Keys
    ensures r.1.Reported? && r.1.run.Finished? ==>
              var out := SchedulerRunBatch(fetched, s.tracker, now, Ok(()), attempt);
              && out.Ran?
              && r.1.run.category == out.category
              && r.1.run.tally == out.loop.tally
              && r.0.tracker == out.loop.tracker
  {
    var out := SchedulerRunBatch(fetched, s.tracker, now, Ok(()), attempt);
    match out
    case Aborted(e) =>
      var run := BatchError(now, e);
      (s.(isRunning := false, lastRun := Some(run)), Reported(run))
    case CampaignComplete =>
      (s.(isRunning := false, lastRun := Some(Complete(now))), CampaignDone)
    case Ran(category, batch, loop) =>
      NoSendsUnlessRan(fetched, s.tracker, now, Ok(()), attempt);
      RunLoopTally(batch, AttemptsFor(batch, attempt), category, now, s.tracker, |batch|);
      var run := Finished(now, category, loop.tally);
      (s.(isRunning := false, tracker := loop.tracker, stats := AddTally(s.stats, loop.tally),
          lastRun := Some(run)), Reported(run))
  }

  /** `runBatch`: the guard, then the batch. A turned-away call changes
      nothing; a call that runs always leaves `isRunning` cleared. */
  function RunBatch(s: ServerState, fetched: Result<seq<User>>, now: int,
                    attempt: nat -> Attempt): (r: (ServerState, BatchReply))
    ensures s.isRunning ==> r == (s, SkippedBatch(AlreadyRunning))
    ensures !s.isRunning && !s.waConnected ==> r == (s, SkippedBatch(WhatsappNotConnected))
    ensures r.1.SkippedBatch? <==> s.isRunning || !s.waConnected
    ensures !s.isRunning ==> !r.0.isRunning
    ensures r.0.waConnected == s.waConnected && r.0.timers == s.timers && r.0.nextRunTime == s.nextRunTime
  {
    match BeginBatch(s)
    case Rejected(reason) => (s, SkippedBatch(reason))
    case Begun(running) => FinishBatch(running, fetched, now, attempt)
  }

  /** The batch as it interleaves with other events: `Trigger` is the guard
      (everything up to the first `await`), `Settle` the rest of a started
      batch. */
  datatype BatchEvent =
    | Trigger
    | Settle(fetched: Result<seq<User>>, now: int, attempt: nat -> Attempt)

  /** The state and the number of batches between their `Trigger` and
      `Settle`. A `Settle` with nothing in flight does not occur. */
  function Interleave(s: ServerState, inFlight: nat, es: seq<BatchEvent>): (ServerState, nat)
    decreases |es|
  {
    if es == [] then (s, inFlight)
    else match es[0]
      case Trigger =>
        (match BeginBatch(s)
         case Rejected(_) => Interleave(s, inFlight, es[1..])
         case Begun(running) => Interleave(running, inFlight + 1, es[1..]))
      case Settle(fetched, now, attempt) =>
        if inFlight == 0 then Interleave(s, inFlight, es[1..])
        else Interleave(FinishBatch(s, fetched, now, attempt).0, inFlight - 1, es[1..])
  }

  /** However triggers and settlements interleave, at most one batch is in
      flight, and exactly when `isRunning` is set. */
  lemma {:induction false} AtMostOneBatchInFlight(s: ServerState, inFlight: nat, es: seq<BatchEvent>)
    requires inFlight == (if s.isRunning then 1 else 0)
    ensures var (s', n) := Interleave(s, inFlight, es);
            n <= 1 && (n == 1 <==> s'.isRunning)
    decreases |es|
  {
    if es != [] {
      match es[0]
      case Trigger =>
        match BeginBatch(s) {
          case Rejected(_) =>
            AtMostOneBatchInFlight(s, inFlight, es[1..]);
          case Begun(running) =>
            AtMostOneBatchInFlight(running, inFlight + 1, es[1..]);
        }
      case Settle(fetched, now, attempt) =>
        if inFlight == 0 {
          AtMostOneBatchInFlight(s, inFlight, es[1..]);
        } else {
          AtMostOneBatchInFlight(FinishBatch(s, fetched, now, attempt).0, inFlight - 1, es[1..]);
        }
    }
  }

  /** The HTTP answer of `POST /run`. */
  datatype RunReply = Conflict | NotConnected | Started

  function RunRoute(s: ServerState): (r: RunReply)
    ensures r == Conflict <==> s.isRunning
    ensures r == NotConnected <==> !s.isRunning && !s.waConnected
  {
    if s.isRunning then Conflict
    else if !s.waConnected then NotConnected
    else Started
  }

  /** The route's own checks agree with the guard inside `runBatch`: a
      started run is never turned away, and each refusal has the same
      reason. */
  lemma RouteAgreesWithGuard(s: ServerState)
    ensures RunRoute(s) == Started <==> BeginBatch(s).Begun?
    ensures RunRoute(s) == Conflict <==> BeginBatch(s) == Rejected(AlreadyRunning)
    ensures RunRoute(s) == NotConnected <==> BeginBatch(s) == Rejected(WhatsappNotConnected)
  {
  }

  datatype CategoryStat = CategoryStat(total: nat, sent: nat, remaining: nat)

  /** The body of `GET /categories`. */
  datatype CategoriesReport = CategoriesReport(total: nat, tracked: nat, categories: map<Category, CategoryStat>)

  function IsTrackedIn(tracker: Tracker): CategorizedUser -> bool {
    (u: CategorizedUser) => u.id in tracker
  }

  function IsUntrackedIn(tracker: Tracker): CategorizedUser -> bool {
    (u: CategorizedUser) => u.id !in tracker
  }

  function IsSentIn(tracker: Tracker, c: Category): CategorizedUser -> bool {
    (u: CategorizedUser) => u.category == c && u.id in tracker
  }

  /** One row of the breakdown: total, already tracked, still unsent. */
  function CategoryStatOf(users: seq<CategorizedUser>, tracker: Tracker, c: Category): (r: CategoryStat)
    ensures r.total == CountIn(users, c)
    ensures r.sent + r.remaining == r.total
    ensures r.remaining == |Unsent(users, tracker, c)|
    ensures r.sent == Count(users, IsSentIn(tracker, c))
  {
    var all := Filter(users, HasCategory(c));
    var unsent := Filter(all, IsUntrackedIn(tracker));
    FilterFilter(users, HasCategory(c), IsUntrackedIn(tracker), IsUnsentIn(tracker, c));
    FilterFilter(users, HasCategory(c), IsTrackedIn(tracker), IsSentIn(tracker, c));
    CountComplement(all, IsTrackedIn(tracker), IsUntrackedIn(tracker));
    CountIsFilterLength(users, HasCategory(c));
    CountIsFilterLength(all, IsTrackedIn(tracker));
    CountIsFilterLength(all, IsUntrackedIn(tracker));
    CountIsFilterLength(users, IsSentIn(tracker, c));
    CategoryStat(|all|, |all| - |unsent|, |unsent|)
  }

  /** `GET /categories`: every category, with totals that add up to the
      number of users. */
  function CategoriesSummary(users: seq<CategorizedUser>, tracker: Tracker): (r: CategoriesReport)
    ensures r.total == |users| && r.tracked == |tracker.Keys|
    ensures forall c :: c in r.categories
    ensures forall c :: r.categories[c] == CategoryStatOf(users, tracker, c)
    ensures forall c :: r.categories[c].sent + r.categories[c].remaining == r.categories[c].total
    ensures r.categories[NoKyc].total + r.categories[KycNoTransactions].total
            + r.categories[KycLowActivity].total + r.categories[ActiveNoReferrals].total
            + r.categories[ActiveWithReferrals].total + r.categories[Dormant].total == |users|
  {
    CountsPartition(users);
    CategoriesReport(|users|, |tracker.Keys|, CategoryStats(users, tracker))
  }

  /** The per-category rows, keyed by every category. */
  function CategoryStats(users: seq<CategorizedUser>, tracker: Tracker): (r: map<Category, CategoryStat>)
    ensures forall c :: c in r && r[c] == CategoryStatOf(users, tracker, c)
  {
    EveryCategoryListed();
    map c | c in AllCategories :: CategoryStatOf(users, tracker, c)
  }

  /** The breakdown and the picker agree: remaining is zero everywhere
      exactly when the campaign is complete, and the picked category's
      remaining count is the size of the pick. */
  lemma RemainingAgreesWithPick(users: seq<CategorizedUser>, tracker: Tracker)
    ensures var r := CategoriesSummary(users, tracker);
            PickCategory(users, tracker).None? <==> forall c :: r.categories[c].remaining == 0
    ensures var r := CategoriesSummary(users, tracker);
            PickCategory(users, tracker).Some? ==>
              var p := PickCategory(users, tracker).value;
              r.categories[p.category].remaining == |p.users|
  {
    PickMatchesRemaining(users, tracker);
  }

  lemma PickMatchesRemaining(users: seq<CategorizedUser>, tracker: Tracker)
    ensures PickCategory(users, tracker).None? <==> forall c :: Unsent(users, tracker, c) == []
    ensures PickCategory(users, tracker).Some? ==>
              PickCategory(users, tracker).value.users
              == Unsent(users, tracker, PickCategory(users, tracker).value.category)
  {
    if PickCategory(users, tracker).None? {
      PriorityIsPermutation();
      assert PickFrom(CategoryPriority, users, tracker).None?;
      forall c
        ensures Unsent(users, tracker, c) == []
      {
        assert c in CategoryPriority;
        var i :| 0 <= i < |CategoryPriority| && CategoryPriority[i] == c;
      }
    }
  }

  /** `POST /reset`: an empty tracker and zeroed stats; nothing else. */
  function Reset(s: ServerState): (r: ServerState)
    ensures r.tracker == map[] && r.stats == ZeroStats
    ensures r == s.(tracker := map[], stats := ZeroStats)
  {
    s.(tracker := map[], stats := ZeroStats)
  }

  /** After a reset every user is eligible again, and the campaign is
      complete only when there are no users. */
  lemma ResetReopensEveryone(s: ServerState, users: seq<CategorizedUser>)
    ensures forall u :: u in users ==> u in Unsent(users, Reset(s).tracker, u.category)
    ensures PickCategory(users, Reset(s).tracker).None? <==> users == []
  {
    if users != [] {
      assert users[0] in users;
    }
  }

  /** The server's `scheduleNextRun`: the scheduler's draw and timer, with
      the next run time recorded for the dashboard. */
  function ServerScheduleNextRun(s: ServerState, now: int, dayStart: int, u1: real, u2: real): (r: ServerState)
    requires 0.0 <= u1 < 1.0 && 0.0 <= u2 < 1.0
    requires dayStart <= now < dayStart + DAY_MS
    ensures r.nextRunTime.Some? && now < r.nextRunTime.value <= now + DAY_MS
    ensures r.timers.handle.Some? && r.timers.handle.value in r.timers.pending
            && r.timers.pending[r.timers.handle.value] == r.nextRunTime.value
    ensures AtMostOnePending(s.timers) ==> AtMostOnePending(r.timers) && |r.timers.pending| == 1
    ensures r == s.(timers := r.timers, nextRunTime := r.nextRunTime)
  {
    var next := ScheduleNextRun(s.timers, now, dayStart, u1, u2);
    s.(timers := next.0, nextRunTime := Some(now + next.1))
  }

  /** `boot`: a successful WhatsApp start connects and schedules the first
      batch; a failed one leaves the server unconnected and unscheduled. */
  function Boot(s: ServerState, init: Result<()>, now: int, dayStart: int, u1: real, u2: real): (r: ServerState)
    requires 0.0 <= u1 < 1.0 && 0.0 <= u2 < 1.0
    requires dayStart <= now < dayStart + DAY_MS
    ensures r.waConnected <==> s.waConnected || init.Ok?
    ensures init.Err? ==> r == s
    ensures init.Ok? ==> r.nextRunTime.Some? && now < r.nextRunTime.value <= now + DAY_MS
  {
    match init
    case Err(_) => s
    case Ok(_) => ServerScheduleNextRun(s.(waConnected := true), now, dayStart, u1, u2)
  }

  /** The timeout callback: the stored timeout fires, the batch runs, and
      the next run is scheduled. Exactly one timeout is pending afterwards. */
  function OnTimeout(s: ServerState, fetched: Result<seq<User>>, now: int, attempt: nat -> Attempt,
                     later: int, dayStart: int, u1: real, u2: real): (r: (ServerState, BatchReply))
    requires s.timers.handle.Some? && s.timers.handle.value in s.timers.pending
    requires 0.0 <= u1 < 1.0 && 0.0 <= u2 < 1.0
    requires dayStart <= later < dayStart + DAY_MS
    ensures AtMostOnePending(s.timers) ==> AtMostOnePending(r.0.timers) && |r.0.timers.pending| == 1
    ensures r.0.nextRunTime.Some? && later < r.0.nextRunTime.value <= later + DAY_MS
    ensures !s.isRunning ==> !r.0.isRunning
  {
    var fired := s.(timers := Fire(s.timers, s.timers.handle.value));
    var (ran, reply) := RunBatch(fired, fetched, now, attempt);
    (ServerScheduleNextRun(ran, later, dayStart, u1, u2), reply)
  }
}

=== FILE: text.dfy ===
/** Character classes and whitespace handling shared by the name extractor
    and the phone normaliser. */
module Text {

  /** The whitespace class `\s` (and what `trim` removes), restricted to the
      ASCII members: space, tab, line feed, carriage return, vertical tab and
      form feed. */
  predicate IsSpace(c: char) {
    c == ' ' || c == '\t' || c == '\n' || c == '\r' || c == '\U{0B}' || c == '\U{0C}'
  }

  /** The class `\d`. */
  predicate IsDigit(c: char) {
    '0' <= c <= '9'
  }

  predicate AllSpace(s: string) {
    forall i :: 0 <= i < |s| ==> IsSpace(s[i])
  }

  predicate NoSpace(s: string) {
    forall i :: 0 <= i < |s| ==> !IsSpace(s[i])
  }

  /** `/^\d+$/.test(s)`: non-empty and every character a digit. */
  predicate AllDigits(s: string) {
    |s| > 0 && forall i :: 0 <= i < |s| ==> IsDigit(s[i])
  }

  predicate StartsWith(s: string, prefix: string) {
    |prefix| <= |s| && s[..|prefix|] == prefix
  }

  /** `s` without its leading whitespace. */
  function TrimStart(s: string): (r: string)
    ensures |r| <= |s| && r == s[|s| - |r|..]
    ensures AllSpace(s[..|s| - |r|])
    ensures r != [] ==> !IsSpace(r[0])
  {
    if s != [] && IsSpace(s[0]) then TrimStart(s[1..]) else s
  }

  /** `s` without its trailing whitespace. */
  function TrimEnd(s: string): (r: string)
    ensures |r| <= |s| && r == s[..|r|]
    ensures AllSpace(s[|r|..])
    ensures r != [] ==> !IsSpace(r[|r| - 1])
  {
    if s != [] && IsSpace(s[|s| - 1]) then TrimEnd(s[..|s| - 1]) else s
  }

  /** `String.prototype.trim`. */
  function Trim(s: string): (r: string)
    ensures |r| <= |s|
    ensures r == [] <==> AllSpace(s)
    ensures r != [] ==> !IsSpace(r[0]) && !IsSpace(r[|r| - 1])
  {
    var t := TrimStart(s);
    var r := TrimEnd(t);
    assert r == [] ==> AllSpace(s) by {
      if r == [] {
        assert s == s[..|s| - |t|] + t;
        assert AllSpace(t) by { assert t[|r|..] == t; }
      }
    }
    assert r != [] ==> r[0] == t[0];
    r
  }

  /** The longest prefix of `s` that holds no whitespace: the first element
      of `s.split(/\s+/)` when `s` does not start with whitespace. */
  function FirstToken(s: string): (r: string)
    ensures |r| <= |s| && r == s[..|r|]
    ensures NoSpace(r)
    ensures |r| == |s| || IsSpace(s[|r|])
  {
    if s == [] || IsSpace(s[0]) then [] else [s[0]] + FirstToken(s[1..])
  }
}

=== FILE: whatsapp.dfy ===
/** The pure parts of `whatsapp.js`: Kenyan phone-number normalisation and
    the way `isOnWhatsApp` and `sendMessage` turn the client's answers into
    a status. The client itself is abstracted to whether it exists and what
    its registration lookup and its delivery did. */
module WhatsApp {
  import opened Wrappers
  import opened Seqs
  import opened Text

  /** Characters removed before any check: whitespace, `-` and `+`. */
  predicate Stripped(c: char) {
    IsSpace(c) || c == '-' || c == '+'
  }

  /** The characters `Clean` keeps. */
  const KeepChar: char -> bool := (c: char) => !Stripped(c)

  /** `phone.replace(/[\s\-\+]/g, '')`. */
  function Clean(phone: string): (r: string)
    ensures forall i :: 0 <= i < |r| ==> !Stripped(r[i])
    ensures forall c :: c in r <==> c in phone && !Stripped(c)
  {
    var r := Filter(phone, KeepChar);
    assert forall i :: 0 <= i < |r| ==> r[i] in r;
    r
  }

  /** Removing nothing but separators from a single character. */
  lemma CleanOne(c: char)
    ensures Clean([c]) == if Stripped(c) then [] else [c]
  {
    assert [c][1..] == [];
  }

  /** Cleaning distributes over concatenation. */
  lemma CleanConcat(a: string, b: string)
    ensures Clean(a + b) == Clean(a) + Clean(b)
  {
    FilterConcat(a, b, KeepChar);
  }

  /** Local form `07…`/`01…` rewritten to the international `2547…`/`2541…`. */
  function ToInternational(cleaned: string): string {
    if StartsWith(cleaned, "07") || StartsWith(cleaned, "01") then "254" + cleaned[1..]
    else cleaned
  }

  /** The only shape a formatted number can have: twelve digits starting
      with the country code 254. */
  predicate IsKenyanMsisdn(s: string) {
    |s| == 12 && AllDigits(s) && StartsWith(s, "254")
  }

  /** `formatKenyanNumber`. */
  function FormatKenyanNumber(phone: string): (r: Option<string>)
    ensures r.Some? ==> IsKenyanMsisdn(r.value)
    ensures r.Some? ==> r.value == ToInternational(Clean(phone))
    ensures r.None? <==> !IsKenyanMsisdn(ToInternational(Clean(phone)))
  {
    var cleaned := ToInternational(Clean(phone));
    if !StartsWith(cleaned, "254") then None
    else if |cleaned| != 12 || !AllDigits(cleaned) then None
    else Some(cleaned)
  }

  /** Exactly two spellings are accepted once separators are removed: the
      international number itself, or `0` followed by its nine national
      digits when those start with 7 or 1. */
  lemma FormatAcceptsExactly(phone: string, x: string)
    ensures FormatKenyanNumber(phone) == Some(x) <==>
              IsKenyanMsisdn(x) &&
              (Clean(phone) == x || (Clean(phone) == "0" + x[3..] && (x[3] == '7' || x[3] == '1')))
  {
    var c := Clean(phone);
    if FormatKenyanNumber(phone) == Some(x) {
      InternationalFrom(c, x);
    }
    if IsKenyanMsisdn(x) && (c == x || (c == "0" + x[3..] && (x[3] == '7' || x[3] == '1'))) {
      InternationalTo(c, x);
    }
  }

  /** Which cleaned strings rewrite to a given valid number. */
  lemma InternationalFrom(c: string, x: string)
    requires IsKenyanMsisdn(x) && ToInternational(c) == x
    ensures c == x || (c == "0" + x[3..] && (x[3] == '7' || x[3] == '1'))
  {
    if StartsWith(c, "07") || StartsWith(c, "01") {
      assert x == "254" + c[1..];
      assert x[3..] == c[1..];
      assert c == [c[0]] + c[1..];
      assert c[..2][1] == c[1];
    }
  }

  /** Each accepted spelling rewrites to the number itself. */
  lemma InternationalTo(c: string, x: string)
    requires IsKenyanMsisdn(x)
    requires c == x || (c == "0" + x[3..] && (x[3] == '7' || x[3] == '1'))
    ensures ToInternational(c) == x
  {
    if c == x {
      assert c[..2] == "25";
    } else {
      assert c[..2] == "0" + [x[3]];
      assert StartsWith(c, "07") || StartsWith(c, "01");
      assert c[1..] == x[3..];
      assert x == x[..3] + x[3..];
    }
  }

  /** Separators may sit anywhere: inserting one changes nothing. */
  lemma FormatIgnoresSeparator(a: string, c: char, b: string)
    requires Stripped(c)
    ensures FormatKenyanNumber(a + [c] + b) == FormatKenyanNumber(a + b)
  {
    FormatIgnoresSeparatorClean(a, c, b);
  }

  lemma FormatIgnoresSeparatorClean(a: string, c: char, b: string)
    requires Stripped(c)
    ensures Clean(a + [c] + b) == Clean(a + b)
  {
    CleanConcat(a + [c], b);
    CleanConcat(a, [c]);
    CleanConcat(a, b);
    CleanOne(c);
  }

  lemma CleanDigits(digits: string)
    requires forall i :: 0 <= i < |digits| ==> IsDigit(digits[i])
    ensures Clean(digits) == digits
  {
    forall i | 0 <= i < |digits|
      ensures KeepChar(digits[i])
    {
      assert IsDigit(digits[i]);
    }
    FilterKeepsAll(digits, KeepChar);
  }

  lemma CleanExampleSpace()
    ensures Clean("0712" + [' '] + ("345" + ['-'] + "678")) == Clean("0712" + ("345" + ['-'] + "678"))
  {
    FormatIgnoresSeparatorClean("0712", ' ', "345" + ['-'] + "678");
  }

  lemma CleanExampleDash()
    ensures Clean(("0712" + "345") + ['-'] + "678") == Clean(("0712" + "345") + "678")
  {
    FormatIgnoresSeparatorClean("0712" + "345", '-', "678");
  }

  lemma CleanExampleDigits()
    ensures Clean("0712345678") == "0712345678"
  {
    CleanDigits("0712345678");
  }

  lemma CleanExample(p: string)
    requires p == "0712 345-678"
    ensures Clean(p) == "0712345678"
  {
    var q := "0712" + ("345" + ['-'] + "678");
    var d := "0712345678";
    assert Clean(p) == Clean(q) by {
      assert p == "0712" + [' '] + ("345" + ['-'] + "678");
      CleanExampleSpace();
    }
    assert Clean(q) == Clean(d) by {
      assert q == ("0712" + "345") + ['-'] + "678";
      assert ("0712" + "345") + "678" == d;
      CleanExampleDash();
    }
    CleanExampleDigits();
  }

  /** Worked example: spaces and a dash removed, local prefix rewritten. */
  lemma FormatExample(p: string)
    requires p == "0712 345-678"
    ensures FormatKenyanNumber(p) == Some("254712345678")
  {
    CleanExample(p);
    InternationalExample();
    MsisdnExample();
  }

  lemma InternationalExample()
    ensures ToInternational("0712345678") == "254712345678"
  {
    var digits := "0712345678";
    assert digits[..2] == "07";
    assert "254" + digits[1..] == "254712345678";
  }

  lemma MsisdnExample()
    ensures IsKenyanMsisdn("254712345678")
  {
    var x := "254712345678";
    assert x[..3] == "254";
    assert forall i :: 0 <= i < |x| ==> IsDigit(x[i]);
  }

  /** Formatting a formatted number returns it unchanged. */
  lemma FormatIdempotent(phone: string)
    requires FormatKenyanNumber(phone).Some?
    ensures FormatKenyanNumber(FormatKenyanNumber(phone).value) == FormatKenyanNumber(phone)
  {
    var x := FormatKenyanNumber(phone).value;
    CleanDigits(x);
    assert x[0] == '2';
  }

  /** What the client's registration lookup did. */
  datatype Lookup = Registered(registered: bool) | LookupThrew

  /** What the client's delivery call did. */
  datatype Delivery = Delivered | DeliveryThrew(error: string)

  /** The calls made on the client, to show which checks ran. */
  datatype ClientCall = CheckRegistered(chatId: string) | Deliver(chatId: string, message: string)

  datatype SendStatus = Sent | Skipped | Failed

  /** The object `sendMessage` resolves with (its timestamp left out). */
  datatype SendResult = SendResult(phone: string, status: SendStatus, error: Option<string>)

  /** `sendMessage` either rejects because no client exists, or resolves. */
  datatype SendOutcome =
    | NotInitialized
    | Resolved(result: SendResult, calls: seq<ClientCall>)

  function ChatId(formatted: string): string {
    formatted + "@c.us"
  }

  /** `isOnWhatsApp`: false without a client, for a malformed number, or
      when the lookup throws; otherwise the lookup's answer. */
  function IsOnWhatsApp(hasClient: bool, phone: string, lookup: Lookup): (r: bool)
    ensures r <==> hasClient && FormatKenyanNumber(phone).Some? && lookup == Registered(true)
  {
    if !hasClient then false
    else match FormatKenyanNumber(phone)
      case None => false
      case Some(_) =>
        match lookup
        case Registered(b) => b
        case LookupThrew => false
  }

  /** `sendMessage`. */
  function SendMessage(hasClient: bool, phone: string, message: string,
                       lookup: Lookup, delivery: Delivery): (r: SendOutcome)
    ensures r.NotInitialized? <==> !hasClient
    ensures hasClient && FormatKenyanNumber(phone).None? ==>
              r == Resolved(SendResult(phone, Skipped, Some("Invalid phone number format")), [])
    ensures hasClient && FormatKenyanNumber(phone).Some? && lookup != Registered(true) ==>
              var f := FormatKenyanNumber(phone).value;
              r == Resolved(SendResult(f, Skipped, Some("Not registered on WhatsApp")),
                            [CheckRegistered(ChatId(f))])
    ensures r.Resolved? && r.result.status == Sent <==>
              hasClient && FormatKenyanNumber(phone).Some? && lookup == Registered(true)
              && delivery == Delivered
    ensures r.Resolved? && r.result.status == Failed <==>
              hasClient && FormatKenyanNumber(phone).Some? && lookup == Registered(true)
              && delivery.DeliveryThrew?
    ensures r.Resolved? && r.result.status != Skipped ==>
              var f := FormatKenyanNumber(phone).value;
              r.result.phone == f && r.calls == [CheckRegistered(ChatId(f)), Deliver(ChatId(f), message)]
    ensures r.Resolved? && r.result.status == Sent ==> r.result.error.None?
    ensures r.Resolved? && r.result.status == Failed ==> r.result.error == Some(delivery.error)
  {
    if !hasClient then NotInitialized
    else match FormatKenyanNumber(phone)
      case None =>
        Resolved(SendResult(phone, Skipped, Some("Invalid phone number format")), [])
      case Some(f) =>
        var check := [CheckRegistered(ChatId(f))];
        if !IsOnWhatsApp(hasClient, phone, lookup) then
          Resolved(SendResult(f, Skipped, Some("Not registered on WhatsApp")), check)
        else match delivery
          case Delivered =>
            Resolved(SendResult(f, Sent, None), check + [Deliver(ChatId(f), message)])
          case DeliveryThrew(e) =>
            Resolved(SendResult(f, Failed, Some(e)), check + [Deliver(ChatId(f), message)])
  }

  /** Every delivery attempt goes to a well-formed Kenyan number that the
      lookup reported as registered. */
  lemma DeliveriesOnlyToRegisteredNumbers(hasClient: bool, phone: string, message: string,
                                          lookup: Lookup, delivery: Delivery, r: SendOutcome, i: nat)
    requires r == SendMessage(hasClient, phone, message, lookup, delivery)
    requires r.Resolved? && i < |r.calls| && r.calls[i].Deliver?
    ensures lookup == Registered(true)
    ensures exists f :: IsKenyanMsisdn(f) && r.calls[i] == Deliver(ChatId(f), message)
  {
    var f := FormatKenyanNumber(phone).value;
    assert IsKenyanMsisdn(f);
  }
}

=== FILE: wrappers.dfy ===
/** Failure-compatible wrappers used throughout the model: `Option` stands
    for JavaScript's `null`-or-value, `Result` for a promise that either
    resolves with a value or rejects with an error message. */
module Wrappers {

  datatype Option<+T> = None | Some(value: T) {

    /** The value in `Some`, or `default` for `None`. */
    function GetOr(default: T): T {
      match this
      case Some(v) => v
      case None => default
    }
  }

  datatype Result<+T> = Ok(value: T) | Err(error: string)
}
